=== FILE: README.md ===
# Berkshire Hathaway 13F tracker — a verified model

The tracker is a single-page dashboard (`app.py`). It lists Berkshire
Hathaway's SEC submissions and keeps the 13F-HR holdings reports. It takes
the two most recent ones, finds the XML information table inside each
filing's directory, and parses the table into holdings rows. It then shows
three things:

- headline metrics for the latest report;
- a top-N table of the latest holdings, grouped and ordered by value;
- a comparison of the two reports: an outer join on CUSIP with value and
  share changes, percent changes, trend icons, new/dropped flags and the
  total value change.

This project models that core in Dafny, one module per part:

| file | module | models |
|---|---|---|
| `filings.dfy` | `Filings` | the selection of 13F-HR filings and the choice of the two to compare |
| `locator.dfy` | `Locator` | the search for the information table among a filing's directory items |
| `parser.dfy` | `HoldingsParser` | turning `infoTable` records into holdings rows, with the same defaults and failure cases |
| `diff.dfy` | `Diff` | the diff engine and the page's post-processing of its result |
| `top_holdings.dfy` | `TopHoldings` | grouping, sorting and truncation for the top-N table, and the headline metrics |
| `app.dfy` | `App` | loading the two snapshots, and the page as a function of them |
| `holdings.dfy`, `seqs.dfy`, `wrappers.dfy` | `Holdings`, `Seqs`, `Wrappers` | the holdings row, sequence utilities, `Option` |

Some source code works step by step. The filing loop, the directory scan and
the record loop are methods with loop invariants, and each is proved equal
to a specification function. The rest of the core is expression code, and it
is modelled as functions with lemmas about them.

Network access, JSON decoding and XML parsing become parameters:

- the submission listing is given as its two columns, `form` and
  `accessionNumber`, as plain sequences;
- the directory index of a filing, the bytes of a file and the parsed
  information table of a document are each a function from URL to `Option`
  of the decoded value, where `None` stands for a request or decoding that
  failed.

Two behaviours of the code differ from what a reader of the page would
expect, and the model follows the code in both:

- A reader would expect the -100 value percent change to mark new
  positions only. `fillna(-100)` on that column hits every row whose previous
  value is missing or zero, because a zero previous value also leaves the
  percent change undefined.
- A reader would expect the top-N table to have one row per CUSIP. The code
  groups by the pair (CUSIP, issuer name), so one CUSIP filed under two
  issuer names gives two rows.

## Model

| member | source | states |
|---|---|---|
| Filings.RemoveDashes | app.py:19 | the cleaned accession number is the accession's characters other than '-', in their original order: its k-th character is the one at the k-th non-dash position; it has no '-', and equals the input when the input has no '-' |
| Filings.FetchFilings | app.py:11-22 | the loop over the zipped `form`/`accessionNumber` columns builds exactly the selection `Selected` |
| Filings.SelectedSpec | app.py:17-21 | the k-th selected filing comes from the k-th "13F-HR" entry among the zipped pairs, in list order; every such entry gives one filing; the detail URL and cleaned accession are built from that entry's accession, and the cleaned one has no '-' |
| Filings.ComparisonPair | app.py:70-74 | there is no pair when fewer than two filings are listed; otherwise the pair is `filings[0], filings[1]` |
| Filings.PairNeedsTwoReports | app.py:69-74 | a comparison pair exists iff at least two zipped entries are 13F-HR filings, and it is then made of the first two such entries, in order |
| Seqs.ContainsSpec | app.py:35 | the byte-substring test holds iff the marker occurs at some position of the content |
| Locator.Scan | app.py:29-38 | the result is the URL of the first item whose name ends in ".xml", whose fetch succeeds and whose bytes contain `<informationTable`; it is None iff no item qualifies |
| Locator.LocateInfoTable | app.py:24-43 | the scanning loop, with its early return and the skip past a failed fetch, returns exactly `InfoTableUrl`; an index that failed to load gives None |
| Locator.FailedFetchSkipped | app.py:33-38 | an item whose fetch raised changes nothing: the answer is the one for the listing without it |
| Locator.LaterItemsIgnored | app.py:35-36 | once a match is found, items listed after it cannot change the answer |
| HoldingsParser.ParseInt | app.py:56 | `int` succeeds exactly on optionally signed non-empty digit strings, and gives a non-negative number when there is no '-' sign |
| HoldingsParser.ParseIntSignsAndZeros | app.py:56 | a '+' sign and a leading zero leave the number unchanged, and a '-' sign negates it |
| HoldingsParser.ParseShowInt | app.py:56 | `int` reads back every integer as written in decimal |
| HoldingsParser.ParseRecord | app.py:53-60 | missing text fields become "" and a missing value becomes 0; an empty value fails; a missing `shrsOrPrnAmt/sshPrnamt` or `votingAuthority/Sole` fails, and their empty text reads as 0; a present name, CUSIP or discretion carries its text ("" when the element has none), a present value is `int` of its text, and shares and sole voting are what `NestedInt` reads from their elements |
| HoldingsParser.NestedInt | app.py:57-59 | `int(el.text or 0)` after a two-step `find` succeeds iff the child element exists and its text is missing, empty or an integer literal; missing or empty text gives 0, other text gives `int` of it |
| HoldingsParser.RecordRoundTrip | app.py:53-60 | parsing a record written from a row gives the row back |
| HoldingsParser.ParseAll | app.py:52-62 | the rows are produced iff every record parses, and then row i is record i's row |
| HoldingsParser.Snapshot | app.py:62-65 | a missing document or one failing record gives the empty table; otherwise the table has one row per record, and row i is record i's row |
| HoldingsParser.ParseInfoTables | app.py:45-65 | the record loop returns the parsed rows in document order, or the empty table when the document is missing or any record fails |
| HoldingsParser.DocumentRoundTrip | app.py:52-62 | parsing a document written from rows gives the rows back, in order |
| HoldingsParser.ParseRecordFails | app.py:56-59 | a record fails exactly when its value is present without an integer literal, or `sshPrnamt`/`Sole` is missing or holds non-empty text that is not an integer literal |
| HoldingsParser.OneBadRecordEmptiesAll | app.py:52-65 | one record that fails empties the whole table |
| HoldingsParser.NonNumericEmptiesAll | app.py:56-65 | one record with an unreadable number empties the table, and a non-empty table means every record's numbers were readable |
| Diff.TrendIcon | app.py:90-92 | up iff the change is positive, down iff negative, flat iff zero or undefined |
| Diff.PctChange | app.py:87-88 | the percent change is defined iff the previous amount is present and non-zero, and then times the previous amount it equals 100 times the change |
| Diff.Align | app.py:84-95 | each row's changes are latest minus previous with a missing side counted as 0; the trends go up or down iff the latest amount is above or below the previous one; the percent changes are as in `PctChange` |
| Diff.Join | app.py:83 | every outer-join row has at least one side; a present side is a row of its snapshot with the row's CUSIP; a row lacking the latest side has a CUSIP absent from the latest snapshot |
| Diff.Compare | app.py:82-97 | the comparison rows are the aligned outer-join rows, permuted and sorted by value change, largest first |
| Diff.JoinOnePerCusip | app.py:83 | with unique CUSIPs per snapshot, the outer join has one row per CUSIP of either snapshot and no other |
| Diff.CompareOnePerCusip | app.py:83-97 | the sorted comparison has one row per CUSIP of either snapshot, so its size is that of the union |
| Diff.CompareAligned | app.py:83-95 | with unique CUSIPs, each comparison row holds each snapshot's row for its CUSIP, absent where that snapshot lacks it |
| Diff.CompareRowHasASide | app.py:83 | no comparison row lacks both sides |
| Diff.CompareTotals | app.py:84-85 | with unique CUSIPs, the value changes add up to latest total value minus previous total value, and the share changes likewise |
| Diff.Flag | app.py:135-137 | `is_new` iff the previous side is missing, `is_dropped` iff the latest side is missing; the value percent change becomes -100 where undefined and is kept otherwise; nothing else changes |
| Diff.Changes | app.py:135-137 | row i of the flagged table is comparison row i with only its value percent change altered: -100 where it was undefined, kept where defined; the table stays sorted by value change, and flags a row new or dropped iff its previous or latest side is missing |
| Diff.ChangesFlags | app.py:135-136 | with unique CUSIPs, a row is new iff its CUSIP is not in the previous snapshot, dropped iff not in the latest, and never both |
| Diff.FilledPctChange | app.py:137 | after the fill, a missing or zero previous value gives -100, and the share percent change stays undefined for new positions |
| Diff.TotalChange | app.py:139 | the total change is non-negative when no value change is negative, and non-positive when none is positive |
| Diff.TotalChangeIsDifference | app.py:139 | with unique CUSIPs, the displayed total change equals latest portfolio value minus previous portfolio value |
| Diff.Shown | app.py:142-144 | without the checkbox all rows are shown; with it, exactly the rows flagged new or dropped |
| Diff.ShownKeepsOrder | app.py:142-144 | the filtered rows are the new or dropped rows, in their original order and with none missing |
| TopHoldings.GroupKeys | app.py:113 | the group keys have no repeats and are exactly the (CUSIP, name) pairs of the snapshot |
| TopHoldings.FirstOf | app.py:117 | "first" picks the earliest row of the group; there is none iff no row has that key |
| TopHoldings.GroupSumIsFilteredSum | app.py:115-118 | a group's sum of a column is the column total over exactly the rows with that (CUSIP, name) key |
| TopHoldings.Aggregate | app.py:113-119 | a group's row carries its key; its value, shares and sole voting authority are the totals over the group's rows; its investment discretion comes from the group's first row |
| TopHoldings.Groups | app.py:113-119 | the grouped table has one row per distinct (CUSIP, name) pair, never more rows than the snapshot; every row is the aggregate of its own key, and every key's aggregate is in the table |
| TopHoldings.TopN | app.py:112-122 | the top-N table has at most N rows, is sorted by value, largest first, and holds only rows of the grouped table |
| TopHoldings.StocksTracked | app.py:107 | "Stocks Tracked" counts the snapshot's rows, at least the number of grouped rows |
| TopHoldings.PortfolioValue | app.py:108 | "Portfolio Value" equals the value total of the grouped table as well as of the snapshot |
| TopHoldings.TopNSize | app.py:112-122 | the table has min(N, number of distinct (CUSIP, name) pairs) rows |
| TopHoldings.TopNRowsAreGroups | app.py:112-119 | each table row is the aggregate of a group present in the snapshot, with value, shares and sole voting authority totalled over that group's rows |
| TopHoldings.TopNDistinct | app.py:113-121 | no group appears twice in the table |
| TopHoldings.TopNLargest | app.py:120-121 | the table is ordered by value, largest first, and every group left out is worth no more than any group kept |
| TopHoldings.GroupTotalIsTotal | app.py:113-118 | the group sums of a column add up to the column's total |
| TopHoldings.TopNCoversTotal | app.py:108-122 | when N covers every group, the table's value, shares and sole-voting columns add up to the snapshot's totals; its values add up to the portfolio value |
| TopHoldings.AggregateIdempotent | app.py:113-119 | grouping a snapshot whose (CUSIP, name) pairs are already unique gives back the same rows, each with its own sums and discretion (in the model's first-appearance order; see "Left out") |
| App.SnapshotOf | app.py:75-79 | a filing whose table is not found, whose document fails to load, or one of whose records fails gives the empty snapshot; a found table whose document loads and parses gives its rows, row i being record i's row; a non-empty snapshot comes only from such a table |
| App.LoadData | app.py:67-80 | no pair iff fewer than two 13F-HR filings are listed; otherwise the latest and previous snapshots of the first two listed, and a filing whose table is not found gives an empty snapshot |
| App.View | app.py:103-144 | the page shows nothing unless the latest snapshot has rows, and shows the comparison iff the previous snapshot has rows too; "Stocks Tracked" is the latest row count, "Portfolio Value" its value total, the table is the top-N table with at most N rows, and the comparison shows the flagged changes, their total and the filtered rows |
| App.ViewComparison | app.py:130-144 | with unique CUSIPs, the displayed total change is portfolio value minus previous value; the comparison has one row per CUSIP of either snapshot; the flags match CUSIP absence; the shown rows are comparison rows, new or dropped under the checkbox |
| App.ViewTop | app.py:110-122 | the displayed top table has min(N, number of groups) rows, is sorted by value, has no repeated group, holds group aggregates and keeps the largest groups |

## Left out

- Streamlit rendering is not modelled: page layout, column headers, CSV export and the `st.cache_data` cache. The dollar-billion formatting of the metrics is left out too.
- The warning and error messages are left out; only their effect on the results is kept (None, or an empty table).
- HTTP requests, the request headers, `raise_for_status`, JSON decoding, ElementTree parsing and the `infoTable` namespace are not modelled. They are oracles, and a failure in any of them is `None`.
- The fetch of the submission listing is not modelled, and it has no error handling in the source. The model takes its two columns as input.
- HoldingsParser.ParseInt: Python's `int` also accepts surrounding whitespace, digit-separating underscores and non-ASCII decimal digits (full-width digits, for instance). The model rejects all three.
- HoldingsParser.ParseRecord: a record holds at most one of each child element, standing for what `find`/`findtext` return. For the one-step fields that is the first occurrence, as in the source. For the two-step paths `shrsOrPrnAmt/sshPrnamt` and `votingAuthority/Sole` it is the first parent's child: the source returns the first `sshPrnamt` (or `Sole`) under any matching parent, so a record whose first parent lacks it but a later parent has it is read by the source and failed by the model. A document is a list of already-located `infoTable` records.
- Diff.Compare: pandas' order of merge keys is not modelled, and neither is the tie order of its unstable sort. The contract states sortedness and the multiset of rows, not one fixed order.
- Diff.Compare: a CUSIP repeated within one snapshot is modelled as every combination of its rows, as in the merge. The counting and total properties are proved only for snapshots with one row per CUSIP.
- Diff.Compare: pandas holds the value and share columns as int64, and as float64 once the outer merge leaves a side missing; the changes and the total change are then float64 sums. The model's unbounded integers agree with them only while the amounts stay below 2^53.
- Diff.PctChange: pandas computes with floating point and NaN. The model uses exact reals, with `None` for NaN.
- Columns carried through the merge with `_latest`/`_previous` suffixes are kept as the two optional rows, not as separate columns.
- TopHoldings.Groups: pandas' `groupby` sorts its group keys, but the model lists groups in order of first appearance. The value sort that follows is not stable in either case, so this changes only the order among groups of equal value. `AggregateIdempotent`'s "row for row" holds for the model's order only.
- TopHoldings.TopN: the tie order of the value sort is not modelled. Ties make the contents at the cut-off depend on that order; the contract says only that every group left out is worth no more than any kept.
- Locator.LocateInfoTable: the source's outer `try` also ends the whole scan with None when an item is not a dictionary or its `name` is not a string. The model's directory items are typed records with string names, so it cannot express such items; a malformed listing is one the index oracle rejects as a whole.
- App.View: the slider bounds N to 5..50, the precondition. The checkbox value is a parameter.

=== FILE: app.dfy ===
/** The dashboard script: load the two most recent holdings reports, then
    derive the headline metrics, the top-N table and, when the earlier report
    has rows, the comparison table with its total value change. The network
    is three oracles: `index(url)` is the decoded directory index at `url`,
    `fetch(url)` the bytes at `url`, `document(url)` the parsed information
    table at `url`; `None` stands for a request or decoding that failed. */
module App {
  import opened Wrappers
  import opened Seqs
  import opened Holdings
  import opened Filings
  import opened Locator
  import opened HoldingsParser
  import opened Diff
  import opened TopHoldings

  /** Smallest and largest N the "Top N holdings" slider allows. */
  const MinTopN: nat := 5
  const MaxTopN: nat := 50

  /** The snapshot of one filing: its information table, located and parsed;
      a filing whose table cannot be found gives the empty snapshot. */
  function SnapshotOf(filing: Filing, index: string -> Option<Index>,
                      fetch: string -> Option<seq<byte>>,
                      document: string -> Option<Document>): (r: seq<Holding>)
    ensures InfoTableUrl(filing, index(filing.url), fetch).None? ==> r == []
    ensures var url := InfoTableUrl(filing, index(filing.url), fetch);
      url.Some? && document(url.value).None? ==> r == []
    ensures var url := InfoTableUrl(filing, index(filing.url), fetch);
      url.Some? && document(url.value).Some? && !AllParse(document(url.value).value) ==> r == []
    ensures var url := InfoTableUrl(filing, index(filing.url), fetch);
      url.Some? && document(url.value).Some? && AllParse(document(url.value).value) ==>
        |r| == |document(url.value).value|
        && forall i :: 0 <= i < |r| ==> Some(r[i]) == ParseRecord(document(url.value).value[i])
    ensures r != [] ==>
      var url := InfoTableUrl(filing, index(filing.url), fetch);
      url.Some? && document(url.value).Some? && AllParse(document(url.value).value)
      && |r| == |document(url.value).value|
  {
    match InfoTableUrl(filing, index(filing.url), fetch)
    case None => []
    case Some(url) => Snapshot(document(url))
  }

  /** Loads the latest and the previous snapshot. There is no pair when fewer
      than two holdings reports are listed; otherwise the pair is the snapshots
      of the first two listed reports, the most recent first. */
  method LoadData(forms: seq<string>, accessions: seq<string>,
                  index: string -> Option<Index>,
                  fetch: string -> Option<seq<byte>>,
                  document: string -> Option<Document>)
    returns (snapshots: Option<(seq<Holding>, seq<Holding>)>)
    ensures snapshots.None? <==> |Selected(forms, accessions)| < 2
    ensures snapshots.Some? ==>
      var filings := Selected(forms, accessions);
      snapshots.value.0 == SnapshotOf(filings[0], index, fetch, document)
      && snapshots.value.1 == SnapshotOf(filings[1], index, fetch, document)
  {
    var filings := FetchFilings(forms, accessions);
    var pair := ComparisonPair(filings);
    if pair.None? {
      return None;
    }
    var (latest, previous) := pair.value;
    var latestUrl := LocateInfoTable(latest, index(latest.url), fetch);
    var previousUrl := LocateInfoTable(previous, index(previous.url), fetch);
    var latestRows: seq<Holding> := [];
    if latestUrl.Some? {
      latestRows := ParseInfoTables(document(latestUrl.value));
    }
    var previousRows: seq<Holding> := [];
    if previousUrl.Some? {
      previousRows := ParseInfoTables(document(previousUrl.value));
    }
    return Some((latestRows, previousRows));
  }

  /** The comparison section: all rows, the total value change, and the rows
      displayed under the "new / dropped only" checkbox. */
  datatype Comparison = Comparison(changes: seq<Change>, totalChange: int, shown: seq<Change>)

  /** What the script displays. */
  datatype Dashboard = Dashboard(
    stocksTracked: nat,
    portfolioValue: int,
    top: seq<Holding>,
    comparison: Option<Comparison>)

  /** The script body after loading: nothing is displayed unless the latest
      snapshot has rows, and the comparison section only when the previous
      snapshot has rows too. */
  function View(snapshots: Option<(seq<Holding>, seq<Holding>)>, n: nat, onlyNewDropped: bool)
    : (r: Option<Dashboard>)
    requires MinTopN <= n <= MaxTopN
    ensures r.Some? <==> snapshots.Some? && snapshots.value.0 != []
    ensures r.Some? ==>
      var (latest, previous) := snapshots.value;
      (r.value.comparison.Some? <==> previous != [])
      && r.value.stocksTracked == |latest|
      && r.value.portfolioValue == SumSeq(ValueUsd, latest)
      && r.value.top == TopN(latest, n)
      && |r.value.top| <= n
      && (r.value.comparison.Some? ==>
            var c := r.value.comparison.value;
            c.changes == Changes(latest, previous)
            && c.totalChange == TotalChange(c.changes)
            && c.shown == Shown(c.changes, onlyNewDropped))
  {
    match snapshots
    case None => None
    case Some((latest, previous)) =>
      if latest == [] then None
      else
        TopNSize(latest, n);
        var comparison :=
          if previous == [] then None
          else
            var changes := Changes(latest, previous);
            Some(Comparison(changes, TotalChange(changes), Shown(changes, onlyNewDropped)));
        Some(Dashboard(StocksTracked(latest), PortfolioValue(latest), TopN(latest, n), comparison))
  }

  /** With one row per CUSIP in each snapshot, the displayed total change is
      the portfolio value less the previous snapshot's value, and each row is
      flagged new or dropped exactly when its CUSIP is missing from the
      previous or the latest snapshot. */
  lemma ViewComparison(latest: seq<Holding>, previous: seq<Holding>, n: nat, onlyNewDropped: bool)
    requires MinTopN <= n <= MaxTopN
    requires latest != [] && previous != []
    requires UniqueCusips(latest) && UniqueCusips(previous)
    ensures var d := View(Some((latest, previous)), n, onlyNewDropped).value;
      var c := d.comparison.value;
      c.totalChange == d.portfolioValue - SumSeq(ValueUsd, previous)
      && |c.changes| == |KeySet(latest) + KeySet(previous)|
      && (forall x :: x in c.shown ==> x in c.changes && (onlyNewDropped ==> x.isNew || x.isDropped))
      && (forall x :: x in c.changes ==>
            (x.isNew <==> x.row.cusip !in KeySet(previous))
            && (x.isDropped <==> x.row.cusip !in KeySet(latest)))
  {
    TotalChangeIsDifference(latest, previous);
    CompareOnePerCusip(latest, previous);
    ChangesFlags(latest, previous);
  }

  /** The top-N table of the dashboard has min(N, number of groups) rows and
      holds the largest aggregated groups of the latest snapshot, largest first,
      each group once. */
  lemma ViewTop(latest: seq<Holding>, previous: seq<Holding>, n: nat, onlyNewDropped: bool)
    requires MinTopN <= n <= MaxTopN
    requires latest != []
    ensures var top := View(Some((latest, previous)), n, onlyNewDropped).value.top;
      |top| == (if n < |GroupKeySet(latest)| then n else |GroupKeySet(latest)|)
      && SortedDesc(ValueUsd, top)
      && Distinct(MapSeq(KeyOf, top))
      && (forall t :: t in top ==> t == Aggregate(latest, KeyOf(t)))
      && (forall g, t :: g in Groups(latest) && g !in top && t in top ==> t.valueUsd >= g.valueUsd)
  {
    TopNSize(latest, n);
    TopNLargest(latest, n);
    TopNDistinct(latest, n);
    TopNRowsAreGroups(latest, n);
  }
}

=== FILE: diff.dfy ===
/** The diff engine: `compare_holdings` (a full outer join of two snapshots on
    CUSIP with changes, percent changes and trends, sorted by value change) and
    the post-processing the page applies to its result (new/dropped flags, the
    -100 fill of the value percent change, the new/dropped filter). */
module Diff {
  import opened Wrappers
  import opened Seqs
  import opened Holdings

  /** The trend icons: up, down, and flat (also for an undefined change). */
  datatype Trend = Up | Down | Flat

  /** `trend_icon`. */
  function TrendIcon(v: Option<int>): (t: Trend)
    ensures t == Up <==> v.Some? && v.value > 0
    ensures t == Down <==> v.Some? && v.value < 0
    ensures t == Flat <==> v.None? || v.value == 0
  {
    match v
    case None => Flat
    case Some(x) => if x > 0 then Up else if x < 0 then Down else Flat
  }

  /** One row of the outer merge before the derived columns: the CUSIP and the
      latest and previous rows, each absent when the other snapshot alone has it. */
  datatype Pairing = Pairing(cusip: string, latest: Option<Holding>, previous: Option<Holding>)

  function PairCusip(p: Pairing): string { p.cusip }

  /** The rows of `s` with CUSIP `c`, in order. */
  function WithCusip(s: seq<Holding>, c: string): (r: seq<Holding>)
    ensures forall h :: h in r ==> h in s && h.cusip == c
  {
    if s == [] then []
    else (if s[0].cusip == c then [s[0]] else []) + WithCusip(s[1..], c)
  }

  /** `l` paired with each of the given previous rows. */
  function PairEach(l: Holding, ms: seq<Holding>): (r: seq<Pairing>)
    ensures forall pr :: pr in r ==> pr.latest == Some(l) && pr.cusip == l.cusip
    ensures forall pr :: pr in r ==> pr.previous.Some? && pr.previous.value in ms
  {
    if ms == [] then []
    else [Pairing(l.cusip, Some(l), Some(ms[0]))] + PairEach(l, ms[1..])
  }

  /** The merge rows of one latest row: one per previous row with its CUSIP, or a
      single row with no previous side. */
  function Matches(l: Holding, previous: seq<Holding>): (r: seq<Pairing>)
    ensures forall pr :: pr in r ==> pr.latest == Some(l) && pr.cusip == l.cusip
    ensures forall pr :: pr in r && pr.previous.Some? ==>
      pr.previous.value in previous && pr.previous.value.cusip == l.cusip
  {
    var ms := WithCusip(previous, l.cusip);
    if ms == [] then [Pairing(l.cusip, Some(l), None)] else PairEach(l, ms)
  }

  function LeftRows(latest: seq<Holding>, previous: seq<Holding>): (r: seq<Pairing>)
    ensures forall pr :: pr in r ==>
      pr.latest.Some? && pr.latest.value in latest && pr.latest.value.cusip == pr.cusip
    ensures forall pr :: pr in r && pr.previous.Some? ==>
      pr.previous.value in previous && pr.previous.value.cusip == pr.cusip
  {
    if latest == [] then []
    else Matches(latest[0], previous) + LeftRows(latest[1..], previous)
  }

  /** The previous rows whose CUSIP the latest snapshot lacks. */
  function RightOnly(latest: seq<Holding>, previous: seq<Holding>): (r: seq<Pairing>)
    ensures forall pr :: pr in r ==>
      pr.latest.None? && pr.previous.Some? && pr.previous.value in previous
      && pr.cusip == pr.previous.value.cusip && pr.cusip !in KeySet(latest)
  {
    if previous == [] then []
    else
      (if previous[0].cusip in KeySet(latest) then []
       else [Pairing(previous[0].cusip, None, Some(previous[0]))])
      + RightOnly(latest, previous[1..])
  }

  /** `pd.merge(latest, previous, on="cusip", how="outer")`: a CUSIP on several
      rows of both sides gives every combination of them. */
  function Join(latest: seq<Holding>, previous: seq<Holding>): (r: seq<Pairing>)
    ensures forall pr :: pr in r ==>
      (pr.latest.Some? || pr.previous.Some?)
      && (pr.latest.Some? ==> pr.latest.value in latest && pr.latest.value.cusip == pr.cusip)
      && (pr.previous.Some? ==> pr.previous.value in previous && pr.previous.value.cusip == pr.cusip)
    ensures forall pr :: pr in r && pr.latest.None? ==> pr.cusip !in KeySet(latest)
  {
    LeftRows(latest, previous) + RightOnly(latest, previous)
  }

  /** `(change / previous.replace(0, NA)) * 100`, undefined when the previous
      amount is absent or zero. */
  function PctChange(change: int, previous: Option<int>): (p: Option<real>)
    ensures p.Some? <==> previous.Some? && previous.value != 0
    ensures p.Some? ==> p.value * (previous.value as real) == (change as real) * 100.0
  {
    if previous.Some? && previous.value != 0
    then Some((change as real) / (previous.value as real) * 100.0)
    else None
  }

  function OptionOf(f: Holding -> int, side: Option<Holding>): Option<int>
  {
    match side
    case None => None
    case Some(h) => Some(f(h))
  }

  /** One output row of `compare_holdings`; `latest`/`previous` carry the
      suffixed `_latest`/`_previous` columns. */
  datatype DiffRow = DiffRow(
    cusip: string,
    latest: Option<Holding>,
    previous: Option<Holding>,
    valueChange: int,
    shareChange: int,
    valuePctChange: Option<real>,
    sharePctChange: Option<real>,
    valueTrend: Trend,
    shareTrend: Trend)

  function RowCusip(r: DiffRow): string { r.cusip }
  function ValueChange(r: DiffRow): int { r.valueChange }
  function ShareChange(r: DiffRow): int { r.shareChange }

  /** The derived columns of one merge row. */
  function Align(p: Pairing): (r: DiffRow)
    ensures r.cusip == p.cusip && r.latest == p.latest && r.previous == p.previous
    ensures r.valueChange == SideAmount(ValueUsd, p.latest) - SideAmount(ValueUsd, p.previous)
    ensures r.shareChange == SideAmount(Shares, p.latest) - SideAmount(Shares, p.previous)
    ensures r.valueTrend == Up <==> SideAmount(ValueUsd, p.latest) > SideAmount(ValueUsd, p.previous)
    ensures r.valueTrend == Down <==> SideAmount(ValueUsd, p.latest) < SideAmount(ValueUsd, p.previous)
    ensures r.shareTrend == Up <==> SideAmount(Shares, p.latest) > SideAmount(Shares, p.previous)
    ensures r.shareTrend == Down <==> SideAmount(Shares, p.latest) < SideAmount(Shares, p.previous)
    ensures r.valuePctChange.Some? <==> p.previous.Some? && p.previous.value.valueUsd != 0
    ensures r.valuePctChange.Some? ==>
      r.valuePctChange.value * (p.previous.value.valueUsd as real) == (r.valueChange as real) * 100.0
    ensures r.sharePctChange.Some? <==> p.previous.Some? && p.previous.value.shares != 0
    ensures r.sharePctChange.Some? ==>
      r.sharePctChange.value * (p.previous.value.shares as real) == (r.shareChange as real) * 100.0
  {
    var valueChange := SideAmount(ValueUsd, p.latest) - SideAmount(ValueUsd, p.previous);
    var shareChange := SideAmount(Shares, p.latest) - SideAmount(Shares, p.previous);
    DiffRow(
      p.cusip, p.latest, p.previous,
      valueChange, shareChange,
      PctChange(valueChange, OptionOf(ValueUsd, p.previous)),
      PctChange(shareChange, OptionOf(Shares, p.previous)),
      TrendIcon(Some(valueChange)),
      TrendIcon(Some(shareChange)))
  }

  /** `compare_holdings(latest, previous)`: the merge rows with their derived
      columns, sorted by value change, largest first. The order among equal value
      changes is left open, as the sort used is not stable. */
  function Compare(latest: seq<Holding>, previous: seq<Holding>): (r: seq<DiffRow>)
    ensures SortedDesc(ValueChange, r)
    ensures multiset(r) == multiset(MapSeq(Align, Join(latest, previous)))
  {
    SortDesc(ValueChange, MapSeq(Align, Join(latest, previous)))
  }

  // ---------------------------------------------------------------------------
  // The merge on snapshots whose CUSIPs are unique on each side

  lemma {:induction false} WithCusipUnique(s: seq<Holding>, c: string)
    requires UniqueCusips(s)
    ensures WithCusip(s, c) == if c in KeySet(s) then [Lookup(s, c).value] else []
  {
    if s != [] {
      WithCusipUnique(s[1..], c);
      assert s == [s[0]] + s[1..];
      assert KeySet(s) == {s[0].cusip} + KeySet(s[1..]);
      if s[0].cusip == c {
        assert c !in KeySet(s[1..]);
      }
    }
  }

  lemma MatchesUnique(l: Holding, previous: seq<Holding>)
    requires UniqueCusips(previous)
    ensures Matches(l, previous) == [Pairing(l.cusip, Some(l), Lookup(previous, l.cusip))]
  {
    WithCusipUnique(previous, l.cusip);
    var ms := WithCusip(previous, l.cusip);
    if ms != [] {
      assert ms == [Lookup(previous, l.cusip).value];
      assert PairEach(l, ms) == [Pairing(l.cusip, Some(l), Some(ms[0]))] + PairEach(l, ms[1..]);
      assert ms[1..] == [];
    }
  }

  lemma {:induction false} LeftRowsUnique(latest: seq<Holding>, previous: seq<Holding>)
    requires UniqueCusips(previous)
    ensures |LeftRows(latest, previous)| == |latest|
    ensures forall i :: 0 <= i < |latest| ==>
      LeftRows(latest, previous)[i] == Pairing(latest[i].cusip, Some(latest[i]), Lookup(previous, latest[i].cusip))
  {
    if latest != [] {
      var l := latest[0];
      MatchesUnique(l, previous);
      LeftRowsUnique(latest[1..], previous);
    }
  }

  /** With unique CUSIPs, each merge row pairs the row of each snapshot that has
      its CUSIP, absent where that snapshot has none. */
  lemma JoinAligned(latest: seq<Holding>, previous: seq<Holding>)
    requires UniqueCusips(latest) && UniqueCusips(previous)
    ensures forall pr :: pr in Join(latest, previous) ==>
      pr.latest == Lookup(latest, pr.cusip) && pr.previous == Lookup(previous, pr.cusip)
  {
    LeftRowsUnique(latest, previous);
    var left, right := LeftRows(latest, previous), RightOnly(latest, previous);
    forall pr | pr in Join(latest, previous)
      ensures pr.latest == Lookup(latest, pr.cusip) && pr.previous == Lookup(previous, pr.cusip)
    {
      if pr in left {
        var i :| 0 <= i < |left| && left[i] == pr;
        LookupUnique(latest, i);
      } else {
        assert pr in right;
        var p := pr.previous.value;
        var j :| 0 <= j < |previous| && previous[j] == p;
        LookupUnique(previous, j);
      }
    }
  }

  /** The CUSIP count of `c` among the previous-only rows. */
  function RightOnlyCountOf(latest: seq<Holding>, previous: seq<Holding>, c: string): nat
  {
    if c in KeySet(previous) && c !in KeySet(latest) then 1 else 0
  }

  lemma {:induction false} RightOnlyCount(latest: seq<Holding>, previous: seq<Holding>)
    requires UniqueCusips(previous)
    ensures forall c :: multiset(MapSeq(PairCusip, RightOnly(latest, previous)))[c]
                        == RightOnlyCountOf(latest, previous, c)
  {
    if previous != [] {
      var p := previous[0];
      var rest := previous[1..];
      RightOnlyCount(latest, rest);
      var head := if p.cusip in KeySet(latest) then [] else [Pairing(p.cusip, None, Some(p))];
      var tail := RightOnly(latest, rest);
      assert RightOnly(latest, previous) == head + tail;
      MapConcat(PairCusip, head, tail);
      var m := multiset(MapSeq(PairCusip, head + tail));
      assert m == multiset(MapSeq(PairCusip, head)) + multiset(MapSeq(PairCusip, tail));
      forall c
        ensures m[c] == RightOnlyCountOf(latest, previous, c)
      {
        RightOnlyCountStep(latest, previous, c);
      }
    }
  }

  lemma RightOnlyCountStep(latest: seq<Holding>, previous: seq<Holding>, c: string)
    requires previous != [] && UniqueCusips(previous)
    ensures RightOnlyCountOf(latest, previous, c)
            == (if c == previous[0].cusip && c !in KeySet(latest) then 1 else 0)
               + RightOnlyCountOf(latest, previous[1..], c)
  {
    KeySetCons(previous);
    assert previous[0].cusip !in KeySet(previous[1..]);
  }

  /** With unique CUSIPs on each side, the merge has exactly one row per CUSIP
      found in either snapshot. */
  lemma JoinOnePerCusip(latest: seq<Holding>, previous: seq<Holding>)
    requires UniqueCusips(latest) && UniqueCusips(previous)
    ensures multiset(MapSeq(PairCusip, Join(latest, previous)))
            == multiset(KeySet(latest) + KeySet(previous))
  {
    LeftRowsUnique(latest, previous);
    var left, right := LeftRows(latest, previous), RightOnly(latest, previous);
    assert MapSeq(PairCusip, left) == Cusips(latest);
    UniqueCount(latest);
    RightOnlyCount(latest, previous);
    MapConcat(PairCusip, left, right);
    var m := multiset(MapSeq(PairCusip, Join(latest, previous)));
    forall c
      ensures m[c] == multiset(KeySet(latest) + KeySet(previous))[c]
    {
      assert m[c] == multiset(Cusips(latest))[c] + RightOnlyCountOf(latest, previous, c);
    }
  }

  // ---------------------------------------------------------------------------
  // Totals

  /** The change of column `f` on one merge row, absent sides read as 0. */
  function PairChange(f: Holding -> int, p: Pairing): int
  {
    SideAmount(f, p.latest) - SideAmount(f, p.previous)
  }

  /** `PairChange` on column `f`, as a function of the merge row. */
  function PairChangeOf(f: Holding -> int): Pairing -> int
  {
    p => PairChange(f, p)
  }

  lemma {:induction false} RowsNetChange(ps: seq<Pairing>)
    ensures SumSeq(ValueChange, MapSeq(Align, ps)) == SumSeq(PairChangeOf(ValueUsd), ps)
    ensures SumSeq(ShareChange, MapSeq(Align, ps)) == SumSeq(PairChangeOf(Shares), ps)
  {
    if ps != [] {
      assert MapSeq(Align, ps)[1..] == MapSeq(Align, ps[1..]);
      RowsNetChange(ps[1..]);
    }
  }

  /** Sum over the latest rows of the matching previous amount of column `f`. */
  function MatchedTotal(f: Holding -> int, latest: seq<Holding>, previous: seq<Holding>): int
  {
    if latest == [] then 0
    else SideAmount(f, Lookup(previous, latest[0].cusip)) + MatchedTotal(f, latest[1..], previous)
  }

  lemma {:induction false} LeftRowsNet(f: Holding -> int, latest: seq<Holding>, previous: seq<Holding>)
    requires UniqueCusips(previous)
    ensures SumSeq(PairChangeOf(f), LeftRows(latest, previous)) == SumSeq(f, latest) - MatchedTotal(f, latest, previous)
  {
    if latest != [] {
      var l := latest[0];
      MatchesUnique(l, previous);
      SumConcat(PairChangeOf(f), Matches(l, previous), LeftRows(latest[1..], previous));
      LeftRowsNet(f, latest[1..], previous);
    }
  }

  lemma {:induction false} MatchedTotalCons(f: Holding -> int, latest: seq<Holding>, p: Holding, rest: seq<Holding>)
    requires UniqueCusips(latest) && p.cusip !in KeySet(rest)
    ensures MatchedTotal(f, latest, [p] + rest)
            == MatchedTotal(f, latest, rest) + (if p.cusip in KeySet(latest) then f(p) else 0)
  {
    if latest != [] {
      assert latest == [latest[0]] + latest[1..];
      assert KeySet(latest) == {latest[0].cusip} + KeySet(latest[1..]);
      if latest[0].cusip == p.cusip {
        assert p.cusip !in KeySet(latest[1..]);
      }
      MatchedTotalCons(f, latest[1..], p, rest);
    }
  }

  lemma {:induction false} RightOnlyNet(f: Holding -> int, latest: seq<Holding>, previous: seq<Holding>)
    requires UniqueCusips(latest) && UniqueCusips(previous)
    ensures MatchedTotal(f, latest, previous) - SumSeq(PairChangeOf(f), RightOnly(latest, previous)) == SumSeq(f, previous)
  {
    if previous == [] {
      assert MatchedTotal(f, latest, []) == 0 by { MatchedTotalNone(f, latest); }
    } else {
      var p, rest := previous[0], previous[1..];
      assert previous == [p] + rest;
      assert p.cusip !in KeySet(rest);
      MatchedTotalCons(f, latest, p, rest);
      RightOnlyNet(f, latest, rest);
      var head := if p.cusip in KeySet(latest) then [] else [Pairing(p.cusip, None, Some(p))];
      SumConcat(PairChangeOf(f), head, RightOnly(latest, rest));
    }
  }

  lemma {:induction false} MatchedTotalNone(f: Holding -> int, latest: seq<Holding>)
    ensures MatchedTotal(f, latest, []) == 0
  {
    if latest != [] {
      MatchedTotalNone(f, latest[1..]);
    }
  }

  /** With unique CUSIPs, the changes of column `f` over the merge add up to the
      latest total minus the previous total. */
  lemma JoinNet(f: Holding -> int, latest: seq<Holding>, previous: seq<Holding>)
    requires UniqueCusips(latest) && UniqueCusips(previous)
    ensures SumSeq(PairChangeOf(f), Join(latest, previous)) == SumSeq(f, latest) - SumSeq(f, previous)
  {
    SumConcat(PairChangeOf(f), LeftRows(latest, previous), RightOnly(latest, previous));
    LeftRowsNet(f, latest, previous);
    RightOnlyNet(f, latest, previous);
  }

  // ---------------------------------------------------------------------------
  // Properties of compare_holdings

  /** Exactly one row per CUSIP of either snapshot, and as many rows as there
      are such CUSIPs. */
  lemma CompareOnePerCusip(latest: seq<Holding>, previous: seq<Holding>)
    requires UniqueCusips(latest) && UniqueCusips(previous)
    ensures multiset(MapSeq(RowCusip, Compare(latest, previous)))
            == multiset(KeySet(latest) + KeySet(previous))
    ensures |Compare(latest, previous)| == |KeySet(latest) + KeySet(previous)|
  {
    var j := Join(latest, previous);
    var rows := MapSeq(Align, j);
    MapPermutation(RowCusip, Compare(latest, previous), rows);
    assert MapSeq(RowCusip, rows) == MapSeq(PairCusip, j);
    JoinOnePerCusip(latest, previous);
    assert |Compare(latest, previous)| == |multiset(MapSeq(RowCusip, Compare(latest, previous)))|;
  }

  /** Each row of the comparison is the derived row of some merge row. */
  lemma CompareRowFromJoin(latest: seq<Holding>, previous: seq<Holding>, r: DiffRow) returns (pr: Pairing)
    requires r in Compare(latest, previous)
    ensures pr in Join(latest, previous) && r == Align(pr)
  {
    var j := Join(latest, previous);
    assert r in multiset(MapSeq(Align, j));
    var i :| 0 <= i < |j| && MapSeq(Align, j)[i] == r;
    pr := j[i];
  }

  /** Every row carries, on each side, that snapshot's row for its CUSIP, so its
      changes, percent changes and trends are those `Align` states for them. */
  lemma CompareAligned(latest: seq<Holding>, previous: seq<Holding>)
    requires UniqueCusips(latest) && UniqueCusips(previous)
    ensures forall r :: r in Compare(latest, previous) ==>
      r.latest == Lookup(latest, r.cusip) && r.previous == Lookup(previous, r.cusip)
  {
    JoinAligned(latest, previous);
    forall r | r in Compare(latest, previous)
      ensures r.latest == Lookup(latest, r.cusip) && r.previous == Lookup(previous, r.cusip)
    {
      var pr := CompareRowFromJoin(latest, previous, r);
    }
  }

  /** The value changes add up to the latest total value minus the previous
      one, and the share changes likewise. */
  lemma CompareTotals(latest: seq<Holding>, previous: seq<Holding>)
    requires UniqueCusips(latest) && UniqueCusips(previous)
    ensures SumSeq(ValueChange, Compare(latest, previous)) == SumSeq(ValueUsd, latest) - SumSeq(ValueUsd, previous)
    ensures SumSeq(ShareChange, Compare(latest, previous)) == SumSeq(Shares, latest) - SumSeq(Shares, previous)
  {
    var j := Join(latest, previous);
    SumPermutation(ValueChange, Compare(latest, previous), MapSeq(Align, j));
    SumPermutation(ShareChange, Compare(latest, previous), MapSeq(Align, j));
    RowsNetChange(j);
    JoinNet(ValueUsd, latest, previous);
    JoinNet(Shares, latest, previous);
  }

  /** Every merge row, and so every comparison row, has at least one side. */
  lemma CompareRowHasASide(latest: seq<Holding>, previous: seq<Holding>, r: DiffRow)
    requires r in Compare(latest, previous)
    ensures r.latest.Some? || r.previous.Some?
  {
    var pr := CompareRowFromJoin(latest, previous, r);
  }

  // ---------------------------------------------------------------------------
  // Post-processing on the page

  /** A comparison row with the page's `is_new` and `is_dropped` columns, and
      its `valuePctChange` after `fillna(-100)`. */
  datatype Change = Change(row: DiffRow, isNew: bool, isDropped: bool)

  function ChangeValue(c: Change): int { c.row.valueChange }

  /** The three column assignments applied to every comparison row. */
  function Flag(row: DiffRow): (c: Change)
    ensures c.isNew <==> row.previous.None?
    ensures c.isDropped <==> row.latest.None?
    ensures c.row.valuePctChange.Some?
    ensures row.valuePctChange.Some? ==> c.row.valuePctChange == row.valuePctChange
    ensures row.valuePctChange.None? ==> c.row.valuePctChange == Some(-100.0)
    ensures c.row.(valuePctChange := row.valuePctChange) == row
  {
    Change(
      row.(valuePctChange := Some(row.valuePctChange.GetOr(-100.0))),
      row.previous.None?,
      row.latest.None?)
  }

  /** `changes` after the page's post-processing. */
  function Changes(latest: seq<Holding>, previous: seq<Holding>): (r: seq<Change>)
    ensures |r| == |Compare(latest, previous)|
    ensures SortedDesc(ChangeValue, r)
    ensures forall c :: c in r ==>
      (c.isNew <==> c.row.previous.None?) && (c.isDropped <==> c.row.latest.None?)
      && c.row.valuePctChange.Some?
    // row i is comparison row i, with only its value percent change filled
    ensures forall i :: 0 <= i < |r| ==>
      r[i].row.(valuePctChange := Compare(latest, previous)[i].valuePctChange) == Compare(latest, previous)[i]
    ensures forall i :: 0 <= i < |r| && Compare(latest, previous)[i].valuePctChange.None? ==>
      r[i].row.valuePctChange == Some(-100.0)
    ensures forall i :: 0 <= i < |r| && Compare(latest, previous)[i].valuePctChange.Some? ==>
      r[i].row.valuePctChange == Compare(latest, previous)[i].valuePctChange
  {
    var rows := Compare(latest, previous);
    var r := MapSeq(Flag, rows);
    assert forall i :: 0 <= i < |r| ==> ChangeValue(r[i]) == ValueChange(rows[i]);
    r
  }

  /** `is_new` holds exactly for the CUSIPs the previous snapshot lacks,
      `is_dropped` exactly for those the latest one lacks, never both. */
  lemma ChangesFlags(latest: seq<Holding>, previous: seq<Holding>)
    requires UniqueCusips(latest) && UniqueCusips(previous)
    ensures forall c :: c in Changes(latest, previous) ==>
      (c.isNew <==> c.row.cusip !in KeySet(previous))
      && (c.isDropped <==> c.row.cusip !in KeySet(latest))
      && !(c.isNew && c.isDropped)
  {
    var rows := Compare(latest, previous);
    CompareAligned(latest, previous);
    forall c | c in Changes(latest, previous)
      ensures (c.isNew <==> c.row.cusip !in KeySet(previous))
        && (c.isDropped <==> c.row.cusip !in KeySet(latest))
        && !(c.isNew && c.isDropped)
    {
      var i :| 0 <= i < |rows| && Changes(latest, previous)[i] == c;
      CompareRowHasASide(latest, previous, rows[i]);
    }
  }

  /** The value percent change after the fill: -100 where the previous value is
      absent and also where it is zero, the exact ratio otherwise; the share
      percent change keeps its undefined entries. */
  lemma FilledPctChange(p: Pairing)
    ensures var c := Flag(Align(p));
      (p.previous.None? || p.previous.value.valueUsd == 0 ==> c.row.valuePctChange == Some(-100.0))
      && (p.previous.Some? && p.previous.value.valueUsd != 0 ==>
            c.row.valuePctChange.value * (p.previous.value.valueUsd as real)
            == (c.row.valueChange as real) * 100.0)
      && (p.previous.None? ==> c.row.sharePctChange.None?)
  {
  }

  /** `changes["valueChange"].sum()`. */
  function TotalChange(changes: seq<Change>): (r: int)
    ensures (forall c :: c in changes ==> c.row.valueChange >= 0) ==> r >= 0
    ensures (forall c :: c in changes ==> c.row.valueChange <= 0) ==> r <= 0
  {
    SumSign(ChangeValue, changes);
    SumSeq(ChangeValue, changes)
  }

  lemma {:induction false} FlaggedSum(rows: seq<DiffRow>)
    ensures TotalChange(MapSeq(Flag, rows)) == SumSeq(ValueChange, rows)
  {
    if rows != [] {
      assert MapSeq(Flag, rows)[1..] == MapSeq(Flag, rows[1..]);
      FlaggedSum(rows[1..]);
    }
  }

  /** The total change metric equals the latest total value minus the previous
      total value. */
  lemma TotalChangeIsDifference(latest: seq<Holding>, previous: seq<Holding>)
    requires UniqueCusips(latest) && UniqueCusips(previous)
    ensures TotalChange(Changes(latest, previous)) == SumSeq(ValueUsd, latest) - SumSeq(ValueUsd, previous)
  {
    FlaggedSum(Compare(latest, previous));
    CompareTotals(latest, previous);
  }

  predicate IsNewOrDropped(c: Change)
  {
    c.isNew || c.isDropped
  }

  /** The rows put on screen: all of them, or with the checkbox ticked the rows
      with `is_new | is_dropped`, each row unchanged. */
  function Shown(changes: seq<Change>, onlyNewDropped: bool): (r: seq<Change>)
    ensures !onlyNewDropped ==> r == changes
    ensures onlyNewDropped ==> forall c :: c in r <==> c in changes && (c.isNew || c.isDropped)
  {
    if onlyNewDropped then Filter(IsNewOrDropped, changes) else changes
  }

  /** The new/dropped view keeps the order of the rows: its k-th row is the row
      at the k-th position holding a new or dropped CUSIP, and every such
      position is kept. */
  lemma ShownKeepsOrder(changes: seq<Change>)
    ensures var ix := FilterIndices(IsNewOrDropped, changes);
      var r := Shown(changes, true);
      |r| == |ix|
      && (forall k :: 0 <= k < |ix| ==> ix[k] < |changes| && r[k] == changes[ix[k]])
      && (forall k, m :: 0 <= k < m < |ix| ==> ix[k] < ix[m])
      && (forall j :: 0 <= j < |changes| ==>
            (changes[j].isNew || changes[j].isDropped <==> j in ix))
  {
    FilterSpec(IsNewOrDropped, changes);
  }
}

=== FILE: filings.dfy ===
/** Filing selection: keeping the 13F-HR entries of the registrant's submission
    list, and choosing the two most recent of them for comparison. The submission
    JSON itself is given as its two parallel lists, `form` and `accessionNumber`. */
module Filings {
  import opened Wrappers
  import opened Seqs

  /** The registrant's central index key. */
  const Cik: string := "0001067983"
  /** The only form type that carries a holdings information table. */
  const HoldingsForm: string := "13F-HR"
  const ArchiveRoot: string := "https://www.sec.gov/Archives/edgar/data/"

  /** A selected filing: its accession number, the URL of its directory index,
      and the accession number with its separators removed. */
  datatype Filing = Filing(accession: string, url: string, accessionClean: string)

  predicate NotDash(c: char)
  {
    c != '-'
  }

  /** `s.replace("-", "")`: the characters of `s` other than '-', in their
      original order. */
  function RemoveDashes(s: string): (r: string)
    ensures var ix := FilterIndices(NotDash, s);
      |r| == |ix|
      && (forall k :: 0 <= k < |ix| ==> ix[k] < |s| && r[k] == s[ix[k]])
      && (forall k, m :: 0 <= k < m < |ix| ==> ix[k] < ix[m])
      && (forall j :: 0 <= j < |s| ==> (s[j] != '-' <==> j in ix))
    ensures '-' !in r
    ensures forall c :: c != '-' ==> multiset(r)[c] == multiset(s)[c]
    ensures '-' !in s ==> r == s
  {
    DashesRemovedInOrder(s);
    DashesRemovedCounts(s);
    Filter(NotDash, s)
  }

  lemma DashesRemovedInOrder(s: string)
    ensures var r, ix := Filter(NotDash, s), FilterIndices(NotDash, s);
      |r| == |ix|
      && (forall k :: 0 <= k < |ix| ==> ix[k] < |s| && r[k] == s[ix[k]])
      && (forall k, m :: 0 <= k < m < |ix| ==> ix[k] < ix[m])
      && (forall j :: 0 <= j < |s| ==> (s[j] != '-' <==> j in ix))
  {
    FilterSpec(NotDash, s);
  }

  lemma DashesRemovedCounts(s: string)
    ensures var r := Filter(NotDash, s);
      '-' !in r
      && (forall c :: c != '-' ==> multiset(r)[c] == multiset(s)[c])
      && ('-' !in s ==> r == s)
  {
    FilterCount(NotDash, s);
    if '-' !in s {
      FilterAll(NotDash, s);
    }
  }

  /** The directory index of a filing, addressed by its cleaned accession number. */
  function DetailUrl(accessionClean: string): string
  {
    ArchiveRoot + Cik + "/" + accessionClean + "/index.json"
  }

  function MakeFiling(accession: string): Filing
  {
    var clean := RemoveDashes(accession);
    Filing(accession, DetailUrl(clean), clean)
  }

  predicate IsHoldingsReport(form: string)
  {
    form == HoldingsForm
  }

  /** `zip` stops at the end of the shorter list. */
  function ZipLength(forms: seq<string>, accessions: seq<string>): nat
  {
    if |forms| < |accessions| then |forms| else |accessions|
  }

  /** The filings made from the first `n` zipped entries. */
  function SelectedUpTo(forms: seq<string>, accessions: seq<string>, n: nat): seq<Filing>
    requires n <= |forms| && n <= |accessions|
  {
    if n == 0 then []
    else
      SelectedUpTo(forms, accessions, n - 1)
        + (if IsHoldingsReport(forms[n - 1]) then [MakeFiling(accessions[n - 1])] else [])
  }

  function Selected(forms: seq<string>, accessions: seq<string>): seq<Filing>
  {
    SelectedUpTo(forms, accessions, ZipLength(forms, accessions))
  }

  /** The loop over the zipped lists that appends one filing per 13F-HR entry. */
  method FetchFilings(forms: seq<string>, accessions: seq<string>) returns (filings: seq<Filing>)
    ensures filings == Selected(forms, accessions)
  {
    filings := [];
    var n := ZipLength(forms, accessions);
    var i := 0;
    while i < n
      invariant 0 <= i <= n
      invariant filings == SelectedUpTo(forms, accessions, i)
    {
      var form, accNum := forms[i], accessions[i];
      if form == HoldingsForm {
        var accClean := RemoveDashes(accNum);
        var detailUrl := DetailUrl(accClean);
        filings := filings + [Filing(accNum, detailUrl, accClean)];
      }
      i := i + 1;
    }
  }

  lemma {:induction false} SelectedUpToIndices(forms: seq<string>, accessions: seq<string>, n: nat)
    requires n <= |forms| && n <= |accessions|
    ensures var ix := FilterIndices(IsHoldingsReport, forms[..n]);
      |SelectedUpTo(forms, accessions, n)| == |ix|
      && forall k :: 0 <= k < |ix| ==>
           ix[k] < n && SelectedUpTo(forms, accessions, n)[k] == MakeFiling(accessions[ix[k]])
  {
    if n > 0 {
      SelectedUpToIndices(forms, accessions, n - 1);
      assert forms[..n][..n - 1] == forms[..n - 1];
    }
  }

  /** The selection keeps exactly the entries whose form is "13F-HR", in list
      order: its k-th filing comes from the k-th such entry among the zipped
      pairs, and every such entry yields one. Each cleaned accession number is
      free of '-'. */
  lemma SelectedSpec(forms: seq<string>, accessions: seq<string>)
    ensures var n := ZipLength(forms, accessions);
      var ix := FilterIndices(IsHoldingsReport, forms[..n]);
      var filings := Selected(forms, accessions);
      |filings| == |ix|
      && (forall k :: 0 <= k < |ix| ==>
            ix[k] < n && forms[ix[k]] == HoldingsForm
            && filings[k] == MakeFiling(accessions[ix[k]])
            && filings[k].accession == accessions[ix[k]]
            && '-' !in filings[k].accessionClean)
      && (forall k, m :: 0 <= k < m < |ix| ==> ix[k] < ix[m])
      && (forall j :: 0 <= j < n ==> (forms[j] == HoldingsForm <==> j in ix))
  {
    var n := ZipLength(forms, accessions);
    SelectedUpToIndices(forms, accessions, n);
    FilterSpec(IsHoldingsReport, forms[..n]);
    var ix := FilterIndices(IsHoldingsReport, forms[..n]);
    assert forall j :: 0 <= j < n ==> forms[..n][j] == forms[j];
  }

  /** `filings[0], filings[1]` once there are at least two; `None` stands for
      "not enough filings found to compare". */
  function ComparisonPair(filings: seq<Filing>): (r: Option<(Filing, Filing)>)
    ensures r.None? <==> |filings| < 2
    ensures r.Some? ==> r.value.0 == filings[0] && r.value.1 == filings[1]
  {
    if |filings| < 2 then None else Some((filings[0], filings[1]))
  }

  /** A comparison pair exists exactly when at least two zipped entries are
      13F-HR filings; it is then made of the first two such entries. */
  lemma PairNeedsTwoReports(forms: seq<string>, accessions: seq<string>)
    ensures var ix := FilterIndices(IsHoldingsReport, forms[..ZipLength(forms, accessions)]);
      var pair := ComparisonPair(Selected(forms, accessions));
      (pair.None? <==> |ix| < 2)
      && (pair.Some? ==>
            ix[0] < ix[1] < ZipLength(forms, accessions)
            && pair.value == (MakeFiling(accessions[ix[0]]), MakeFiling(accessions[ix[1]])))
  {
    SelectedSpec(forms, accessions);
  }
}

=== FILE: holdings.dfy ===
/** One row of a 13F-HR information table, as the parser produces it and the
    diff and top-N views consume it, with lookups by CUSIP. */
module Holdings {
  import opened Wrappers
  import opened Seqs

  /** The six columns of a parsed row: `nameOfIssuer`, `cusip`, `value ($)`,
      `shares`, `investmentDiscretion`, `votingAuthority (Sole)`. */
  datatype Holding = Holding(
    nameOfIssuer: string,
    cusip: string,
    valueUsd: int,
    shares: int,
    investmentDiscretion: string,
    votingSole: int)

  function CusipOf(h: Holding): string { h.cusip }
  function ValueUsd(h: Holding): int { h.valueUsd }
  function Shares(h: Holding): int { h.shares }
  function VotingSole(h: Holding): int { h.votingSole }

  /** The CUSIP column, in row order. */
  function Cusips(s: seq<Holding>): seq<string>
  {
    MapSeq(CusipOf, s)
  }

  /** The set of CUSIPs that occur in a snapshot. */
  function KeySet(s: seq<Holding>): set<string>
  {
    set h | h in s :: h.cusip
  }

  /** No CUSIP occurs on two rows. */
  predicate UniqueCusips(s: seq<Holding>)
  {
    forall i, j :: 0 <= i < j < |s| ==> s[i].cusip != s[j].cusip
  }

  /** The first row with CUSIP `c`, if any. */
  function Lookup(s: seq<Holding>, c: string): (r: Option<Holding>)
    ensures r.None? <==> c !in KeySet(s)
    ensures r.Some? ==> r.value in s && r.value.cusip == c
  {
    if s == [] then None
    else if s[0].cusip == c then Some(s[0])
    else
      assert KeySet(s) == {s[0].cusip} + KeySet(s[1..]) by {
        assert s == [s[0]] + s[1..];
      }
      Lookup(s[1..], c)
  }

  lemma KeySetCons(s: seq<Holding>)
    requires s != []
    ensures KeySet(s) == {s[0].cusip} + KeySet(s[1..])
  {
    assert s == [s[0]] + s[1..];
  }

  /** In a snapshot with unique CUSIPs, a row's own CUSIP finds that row. */
  lemma {:induction false} LookupUnique(s: seq<Holding>, i: nat)
    requires UniqueCusips(s) && i < |s|
    ensures Lookup(s, s[i].cusip) == Some(s[i])
  {
    if i > 0 {
      assert s[0].cusip != s[i].cusip;
      LookupUnique(s[1..], i - 1);
    }
  }

  /** The head's CUSIP does not occur again in a snapshot with unique CUSIPs. */
  lemma HeadCusipNotInRest(s: seq<Holding>)
    requires UniqueCusips(s) && s != []
    ensures s[0].cusip !in KeySet(s[1..])
  {
    var rest := s[1..];
    forall h | h in rest
      ensures h.cusip != s[0].cusip
    {
      var j :| 0 <= j < |rest| && rest[j] == h;
      assert s[j + 1] == h;
    }
  }

  lemma {:induction false} UniqueCountOf(s: seq<Holding>, c: string)
    requires UniqueCusips(s)
    ensures multiset(Cusips(s))[c] == if c in KeySet(s) then 1 else 0
  {
    if s != [] {
      var rest := s[1..];
      UniqueCountOf(rest, c);
      KeySetCons(s);
      HeadCusipNotInRest(s);
      assert Cusips(s) == [s[0].cusip] + Cusips(rest);
      assert multiset(Cusips(s)) == multiset{s[0].cusip} + multiset(Cusips(rest));
    }
  }

  /** In a snapshot with unique CUSIPs, every CUSIP of the snapshot occurs in the
      CUSIP column exactly once, and no other CUSIP occurs. */
  lemma UniqueCount(s: seq<Holding>)
    requires UniqueCusips(s)
    ensures forall c :: multiset(Cusips(s))[c] == if c in KeySet(s) then 1 else 0
  {
    forall c
      ensures multiset(Cusips(s))[c] == if c in KeySet(s) then 1 else 0
    {
      UniqueCountOf(s, c);
    }
  }

  /** The value of column `f` on an optional side of a join, absent read as 0
      (pandas `fillna(0)`). */
  function SideAmount(f: Holding -> int, side: Option<Holding>): int
  {
    match side
    case None => 0
    case Some(h) => f(h)
  }
}

=== FILE: locator.dfy ===
/** The document locator: find, among the items of a filing's directory index,
    the XML file that holds the information table, by looking inside each
    candidate. Fetching is an oracle `fetch(url)`, whose `None` stands for a
    request that raised. */
module Locator {
  import opened Wrappers
  import opened Seqs
  import opened Filings

  newtype byte = b: int | 0 <= b < 256

  /** The ASCII bytes of "<informationTable", the start of the table's root element. */
  const InfoTableMarker: seq<byte> :=
    [60, 105, 110, 102, 111, 114, 109, 97, 116, 105, 111, 110, 84, 97, 98, 108, 101]
  const XmlSuffix: string := ".xml"

  /** One entry of `directory.item` in the index JSON; `name` may be missing. */
  datatype Item = Item(name: Option<string>)
  datatype Directory = Directory(item: Option<seq<Item>>)
  /** The decoded index JSON of a filing's directory. */
  datatype Index = Index(directory: Option<Directory>)

  /** `file.get("name", "")`. */
  function ItemName(it: Item): string
  {
    it.name.GetOr("")
  }

  /** `index_data.get("directory", {}).get("item", [])`; an index whose request or
      decoding failed (`None`) lists nothing. */
  function ListedItems(index: Option<Index>): seq<Item>
  {
    match index
    case None => []
    case Some(ix) =>
      match ix.directory
      case None => []
      case Some(d) => d.item.GetOr([])
  }

  /** The archive URL of a file in a filing's directory. */
  function FileUrl(filing: Filing, name: string): string
  {
    ArchiveRoot + Cik + "/" + filing.accessionClean + "/" + name
  }

  /** An item is the information table when its name ends in ".xml", its fetch
      succeeds, and the fetched bytes contain the marker. */
  predicate IsInfoTable(filing: Filing, fetch: string -> Option<seq<byte>>, it: Item)
  {
    EndsWith(ItemName(it), XmlSuffix)
    && var content := fetch(FileUrl(filing, ItemName(it)));
       content.Some? && Contains(content.value, InfoTableMarker)
  }

  /** Item `k` is an information table and no earlier item is. */
  predicate FirstHitAt(filing: Filing, fetch: string -> Option<seq<byte>>, items: seq<Item>, k: nat)
  {
    k < |items| && IsInfoTable(filing, fetch, items[k])
    && forall j :: 0 <= j < k ==> !IsInfoTable(filing, fetch, items[j])
  }

  /** A first hit after a non-matching head is a first hit of the whole listing. */
  lemma FirstHitShift(filing: Filing, fetch: string -> Option<seq<byte>>, items: seq<Item>, k: nat)
    requires items != [] && !IsInfoTable(filing, fetch, items[0])
    requires FirstHitAt(filing, fetch, items[1..], k)
    ensures FirstHitAt(filing, fetch, items, k + 1) && items[k + 1] == items[1..][k]
  {
    forall j | 0 <= j < k + 1
      ensures !IsInfoTable(filing, fetch, items[j])
    {
      if j > 0 {
        assert items[j] == items[1..][j - 1];
      }
    }
  }

  /** The scan in listing order: the URL of the first information table, or
      `None` when no item is one. */
  function Scan(filing: Filing, fetch: string -> Option<seq<byte>>, items: seq<Item>): (r: Option<string>)
    ensures r.Some? ==> exists k: nat :: FirstHitAt(filing, fetch, items, k)
                                         && r.value == FileUrl(filing, ItemName(items[k]))
    ensures r.None? <==> forall j :: 0 <= j < |items| ==> !IsInfoTable(filing, fetch, items[j])
  {
    if items == [] then None
    else if IsInfoTable(filing, fetch, items[0]) then
      assert FirstHitAt(filing, fetch, items, 0);
      Some(FileUrl(filing, ItemName(items[0])))
    else
      var r := Scan(filing, fetch, items[1..]);
      if r.Some? then
        var k: nat :| FirstHitAt(filing, fetch, items[1..], k)
                      && r.value == FileUrl(filing, ItemName(items[1..][k]));
        FirstHitShift(filing, fetch, items, k);
        r
      else
        r
  }

  /** The information table URL of a filing, given its fetched index. */
  function InfoTableUrl(filing: Filing, index: Option<Index>, fetch: string -> Option<seq<byte>>): Option<string>
  {
    Scan(filing, fetch, ListedItems(index))
  }

  /** One step of the scan: a matching head answers, any other head is passed over. */
  lemma ScanStep(filing: Filing, fetch: string -> Option<seq<byte>>, items: seq<Item>)
    requires items != []
    ensures IsInfoTable(filing, fetch, items[0]) ==>
      Scan(filing, fetch, items) == Some(FileUrl(filing, ItemName(items[0])))
    ensures !IsInfoTable(filing, fetch, items[0]) ==>
      Scan(filing, fetch, items) == Scan(filing, fetch, items[1..])
  {
  }

  /** `get_info_table_url`: the loop that returns at the first match and moves on
      past a fetch that raised. */
  method LocateInfoTable(filing: Filing, index: Option<Index>, fetch: string -> Option<seq<byte>>)
    returns (url: Option<string>)
    ensures url == InfoTableUrl(filing, index, fetch)
  {
    if index.None? {
      return None;
    }
    var items := ListedItems(index);
    var i := 0;
    while i < |items|
      invariant 0 <= i <= |items|
      invariant Scan(filing, fetch, items[i..]) == Scan(filing, fetch, items)
    {
      ScanStep(filing, fetch, items[i..]);
      assert items[i..][0] == items[i] && items[i..][1..] == items[i + 1..];
      var name := items[i].name.GetOr("");
      if EndsWith(name, XmlSuffix) {
        var fileUrl := FileUrl(filing, name);
        var content := fetch(fileUrl);
        if content.Some? && Contains(content.value, InfoTableMarker) {
          return Some(fileUrl);
        }
      }
      i := i + 1;
    }
    return None;
  }

  /** An item whose fetch raised changes nothing: the scan gives the same answer
      as on the listing without that item. */
  lemma {:induction false} FailedFetchSkipped(filing: Filing, fetch: string -> Option<seq<byte>>, items: seq<Item>, j: nat)
    requires j < |items| && fetch(FileUrl(filing, ItemName(items[j]))).None?
    ensures Scan(filing, fetch, items) == Scan(filing, fetch, items[..j] + items[j + 1..])
  {
    if j == 0 {
      assert items[..0] + items[1..] == items[1..];
    } else if !IsInfoTable(filing, fetch, items[0]) {
      FailedFetchSkipped(filing, fetch, items[1..], j - 1);
      var rest := items[..j] + items[j + 1..];
      assert rest[0] == items[0];
      assert rest[1..] == items[1..][..j - 1] + items[1..][j..];
    } else {
      var rest := items[..j] + items[j + 1..];
      assert rest[0] == items[0];
    }
  }

  /** Items appended after a listing cannot change a match already found in it. */
  lemma {:induction false} LaterItemsIgnored(filing: Filing, fetch: string -> Option<seq<byte>>, items: seq<Item>, more: seq<Item>)
    requires Scan(filing, fetch, items).Some?
    ensures Scan(filing, fetch, items + more) == Scan(filing, fetch, items)
  {
    assert items != [];
    assert (items + more)[0] == items[0];
    if !IsInfoTable(filing, fetch, items[0]) {
      assert (items + more)[1..] == items[1..] + more;
      LaterItemsIgnored(filing, fetch, items[1..], more);
    }
  }
}

=== FILE: parser.dfy ===
/** The holdings parser: turning the `infoTable` elements of an information
    table document into rows. The XML is taken as already parsed into a tree;
    `None` for the whole document stands for a failed request, an error status
    or a document ElementTree rejects. */
module HoldingsParser {
  import opened Wrappers
  import opened Seqs
  import opened Holdings

  /** An element found under an `infoTable`; `text` is `None` when it has none. */
  datatype Leaf = Leaf(text: Option<string>)
  /** `shrsOrPrnAmt` or `votingAuthority`, with its nested `sshPrnamt` or `Sole`. */
  datatype Nested = Nested(child: Option<Leaf>)
  /** One `infoTable` element: each child may be missing. */
  datatype InfoTable = InfoTable(
    nameOfIssuer: Option<Leaf>,
    cusip: Option<Leaf>,
    value: Option<Leaf>,
    shrsOrPrnAmt: Option<Nested>,
    investmentDiscretion: Option<Leaf>,
    votingAuthority: Option<Nested>)
  /** The `infoTable` children of the root, in document order. */
  type Document = seq<InfoTable>

  /** ElementTree's `findtext`: `default` when the element is missing, "" when it
      is present without text. */
  function FindText(e: Option<Leaf>, default: string): string
  {
    match e
    case None => default
    case Some(leaf) => leaf.text.GetOr("")
  }

  predicate IsDigit(c: char)
  {
    '0' <= c <= '9'
  }

  predicate AllDigits(s: string)
  {
    forall i :: 0 <= i < |s| ==> IsDigit(s[i])
  }

  /** The number written by a string of decimal digits. */
  function DigitsValue(s: string): nat
    requires AllDigits(s)
  {
    if s == [] then 0
    else 10 * DigitsValue(s[..|s| - 1]) + ((s[|s| - 1] as int) - ('0' as int))
  }

  /** An optionally signed, non-empty run of ASCII decimal digits: the strings
      Python's `int` accepts, leaving aside surrounding blanks, digit separators
      and non-ASCII decimal digits. */
  predicate IsIntLiteral(s: string)
  {
    var digits := if s != [] && (s[0] == '+' || s[0] == '-') then s[1..] else s;
    digits != [] && AllDigits(digits)
  }

  /** Python's `int(s)` on an optionally signed ASCII decimal; `None` where it
      raises `ValueError`. Within the strings modelled (no blanks, separators or
      non-ASCII digits), that is exactly on those that are not integer literals. */
  function ParseInt(s: string): (r: Option<int>)
    ensures r.Some? <==> IsIntLiteral(s)
    ensures r.Some? && s[0] != '-' ==> r.value >= 0
  {
    if s != [] && (s[0] == '+' || s[0] == '-') then
      var body := s[1..];
      if body != [] && AllDigits(body) then
        var n: int := DigitsValue(body);
        Some(if s[0] == '-' then -n else n)
      else None
    else if s != [] && AllDigits(s) then Some(DigitsValue(s))
    else None
  }

  lemma {:induction false} LeadingZeroValue(d: string)
    requires d != [] && AllDigits(d)
    ensures AllDigits("0" + d) && DigitsValue("0" + d) == DigitsValue(d)
  {
    var z := "0" + d;
    assert AllDigits(z) by {
      forall i | 0 <= i < |z|
        ensures IsDigit(z[i])
      {
        if i > 0 {
          assert z[i] == d[i - 1];
        }
      }
    }
    var init := d[..|d| - 1];
    assert z[..|z| - 1] == "0" + init;
    if init != [] {
      LeadingZeroValue(init);
    }
  }

  /** A '+' sign and leading zeros do not change the number read, and a '-'
      sign negates it. */
  lemma ParseIntSignsAndZeros(d: string)
    requires d != [] && AllDigits(d)
    ensures ParseInt("+" + d) == ParseInt(d)
    ensures ParseInt("-" + d) == Some(-ParseInt(d).value)
    ensures ParseInt("0" + d) == ParseInt(d)
  {
    assert ("+" + d)[1..] == d;
    assert ("-" + d)[1..] == d;
    assert IsDigit(d[0]);
    LeadingZeroValue(d);
  }

  /** Python's `str(n)` for a natural number. */
  function ShowNat(n: nat): (s: string)
    ensures s != [] && AllDigits(s) && DigitsValue(s) == n
  {
    var last := [('0' as int + n % 10) as char];
    if n < 10 then last
    else
      var s := ShowNat(n / 10) + last;
      assert s[..|s| - 1] == ShowNat(n / 10);
      s
  }

  /** Python's `str(n)`. */
  function ShowInt(n: int): string
  {
    if n < 0 then "-" + ShowNat(-n) else ShowNat(n)
  }

  /** `int` reads back every number as Python writes it. */
  lemma ParseShowInt(n: int)
    ensures ParseInt(ShowInt(n)) == Some(n)
  {
    if n < 0 {
      assert ShowInt(n)[1..] == ShowNat(-n);
    } else {
      assert IsDigit(ShowNat(n)[0]);
    }
  }

  /** A nested number the parser can read: the element and its child exist, and
      the child's text is missing, empty or an integer literal. */
  predicate NestedParses(g: Option<Nested>)
  {
    g.Some? && g.value.child.Some?
    && (g.value.child.value.text in {None, Some("")} || IsIntLiteral(g.value.child.value.text.value))
  }

  /** `int(el.text or 0)` on the element found by a two-step path: a missing
      element raises (`None.text`), missing or empty text reads as 0. */
  function NestedInt(g: Option<Nested>): (r: Option<int>)
    ensures r.Some? <==> NestedParses(g)
    ensures NestedParses(g) && g.value.child.value.text in {None, Some("")} ==> r == Some(0)
    ensures NestedParses(g) && g.value.child.value.text.Some? && g.value.child.value.text.value != "" ==>
      r == ParseInt(g.value.child.value.text.value)
  {
    match g
    case None => None
    case Some(n) =>
      match n.child
      case None => None
      case Some(leaf) =>
        match leaf.text
        case None => Some(0)
        case Some(t) => if t == "" then Some(0) else ParseInt(t)
  }

  /** The numeric children of a record can be read: `value` is missing or holds
      an integer literal, and both nested numbers parse. */
  predicate NumbersParse(e: InfoTable)
  {
    (e.value.None? || (e.value.value.text.Some? && IsIntLiteral(e.value.value.text.value)))
    && NestedParses(e.shrsOrPrnAmt) && NestedParses(e.votingAuthority)
  }

  /** The row built from one `infoTable`, or `None` when building it raises. */
  function ParseRecord(e: InfoTable): (r: Option<Holding>)
    // missing text fields default to ""
    ensures r.Some? && e.nameOfIssuer.None? ==> r.value.nameOfIssuer == ""
    ensures r.Some? && e.cusip.None? ==> r.value.cusip == ""
    ensures r.Some? && e.investmentDiscretion.None? ==> r.value.investmentDiscretion == ""
    // a missing value defaults to 0, a present but empty one raises
    ensures r.Some? && e.value.None? ==> r.value.valueUsd == 0
    ensures e.value == Some(Leaf(None)) || e.value == Some(Leaf(Some(""))) ==> r.None?
    // the nested numbers must exist; their empty text reads as 0
    ensures e.shrsOrPrnAmt.None? || e.shrsOrPrnAmt.value.child.None? ==> r.None?
    ensures e.votingAuthority.None? || e.votingAuthority.value.child.None? ==> r.None?
    ensures r.Some? && e.shrsOrPrnAmt.value.child.value.text in {None, Some("")} ==> r.value.shares == 0
    ensures r.Some? && e.votingAuthority.value.child.value.text in {None, Some("")} ==> r.value.votingSole == 0
    // present text fields carry their text, "" when the element has none
    ensures r.Some? && e.nameOfIssuer.Some? ==> r.value.nameOfIssuer == e.nameOfIssuer.value.text.GetOr("")
    ensures r.Some? && e.cusip.Some? ==> r.value.cusip == e.cusip.value.text.GetOr("")
    ensures r.Some? && e.investmentDiscretion.Some? ==>
      r.value.investmentDiscretion == e.investmentDiscretion.value.text.GetOr("")
    // present numbers are `int` of their text
    ensures r.Some? && e.value.Some? ==>
      e.value.value.text.Some? && ParseInt(e.value.value.text.value) == Some(r.value.valueUsd)
    ensures r.Some? ==> NestedInt(e.shrsOrPrnAmt) == Some(r.value.shares)
    ensures r.Some? ==> NestedInt(e.votingAuthority) == Some(r.value.votingSole)
  {
    var value := ParseInt(FindText(e.value, "0"));
    var shares := NestedInt(e.shrsOrPrnAmt);
    var sole := NestedInt(e.votingAuthority);
    if value.None? || shares.None? || sole.None? then None
    else
      Some(Holding(
        FindText(e.nameOfIssuer, ""),
        FindText(e.cusip, ""),
        value.value,
        shares.value,
        FindText(e.investmentDiscretion, ""),
        sole.value))
  }

  /** A row written out as an `infoTable` element, every child present. */
  function Render(h: Holding): InfoTable
  {
    InfoTable(
      Some(Leaf(Some(h.nameOfIssuer))),
      Some(Leaf(Some(h.cusip))),
      Some(Leaf(Some(ShowInt(h.valueUsd)))),
      Some(Nested(Some(Leaf(Some(ShowInt(h.shares)))))),
      Some(Leaf(Some(h.investmentDiscretion))),
      Some(Nested(Some(Leaf(Some(ShowInt(h.votingSole)))))))
  }

  /** Parsing a rendered row gives the row back. */
  lemma RecordRoundTrip(h: Holding)
    ensures ParseRecord(Render(h)) == Some(h)
  {
    ParseShowInt(h.valueUsd);
    ParseShowInt(h.shares);
    ParseShowInt(h.votingSole);
    assert ShowInt(h.shares) != "" && ShowInt(h.votingSole) != "";
  }

  predicate AllParse(d: Document)
  {
    forall i :: 0 <= i < |d| ==> ParseRecord(d[i]).Some?
  }

  /** `f` applied to every element, in order, or `None` as soon as one
      application gives `None`. */
  function MapAll<A, B>(f: A -> Option<B>, s: seq<A>): (r: Option<seq<B>>)
    ensures r.Some? <==> forall i :: 0 <= i < |s| ==> f(s[i]).Some?
    ensures r.Some? ==> (|r.value| == |s| && forall i :: 0 <= i < |s| ==> Some(r.value[i]) == f(s[i]))
  {
    if s == [] then Some([])
    else
      var init := s[..|s| - 1];
      assert forall i :: 0 <= i < |init| ==> init[i] == s[i];
      match MapAll(f, init)
      case None => None
      case Some(rows) =>
        match f(s[|s| - 1])
        case None => None
        case Some(row) =>
          var r := rows + [row];
          assert forall i :: 0 <= i < |init| ==> r[i] == rows[i];
          Some(r)
  }

  /** All records parsed, one row per record in document order, or `None` as soon
      as one record raises. */
  function ParseAll(d: Document): (r: Option<seq<Holding>>)
    ensures r.Some? <==> AllParse(d)
    ensures r.Some? ==> (|r.value| == |d|
      && forall i :: 0 <= i < |d| ==> Some(r.value[i]) == ParseRecord(d[i]))
  {
    MapAll(ParseRecord, d)
  }

  /** The table a document yields: every record's row, or nothing at all when
      the document is missing or any record raises. */
  function Snapshot(doc: Option<Document>): (r: seq<Holding>)
    ensures doc.None? ==> r == []
    ensures doc.Some? && !AllParse(doc.value) ==> r == []
    ensures doc.Some? && AllParse(doc.value) ==>
      |r| == |doc.value| && forall i :: 0 <= i < |r| ==> Some(r[i]) == ParseRecord(doc.value[i])
  {
    match doc
    case None => []
    case Some(d) => ParseAll(d).GetOr([])
  }

  /** `parse_13f_xml`: the loop that appends one row per `infoTable`, where any
      exception discards everything gathered so far. */
  method ParseInfoTables(doc: Option<Document>) returns (rows: seq<Holding>)
    ensures rows == Snapshot(doc)
  {
    if doc.None? {
      return [];
    }
    var records := doc.value;
    var data: seq<Holding> := [];
    var i := 0;
    while i < |records|
      invariant 0 <= i <= |records|
      invariant ParseAll(records[..i]) == Some(data)
    {
      assert records[..i + 1][..i] == records[..i];
      var row := ParseRecord(records[i]);
      if row.None? {
        assert !AllParse(records);
        return [];
      }
      data := data + [row.value];
      i := i + 1;
    }
    assert records[..i] == records;
    rows := data;
  }

  /** Parsing rendered rows gives the rows back, in order. */
  lemma {:induction false} DocumentRoundTrip(rows: seq<Holding>)
    ensures Snapshot(Some(MapSeq(Render, rows))) == rows
  {
    var d := MapSeq(Render, rows);
    forall i | 0 <= i < |d|
      ensures ParseRecord(d[i]) == Some(rows[i])
    {
      RecordRoundTrip(rows[i]);
    }
    var r := ParseAll(d);
    assert r.Some?;
    assert r.value == rows;
  }

  /** Building a row raises exactly when one of the record's numbers cannot be
      read: a missing nested element, or text that is not an integer literal. */
  lemma ParseRecordFails(e: InfoTable)
    ensures ParseRecord(e).Some? <==> NumbersParse(e)
  {
  }

  /** One record that raises empties the whole table, whatever the others hold. */
  lemma OneBadRecordEmptiesAll(d: Document, i: nat)
    requires i < |d| && ParseRecord(d[i]).None?
    ensures Snapshot(Some(d)) == []
  {
  }

  /** In particular, one record whose value, `sshPrnamt` or `Sole` is missing
      where required or holds text that is not an integer empties the table;
      and a table is produced from a non-empty document only when every
      record's numbers can be read. */
  lemma NonNumericEmptiesAll(d: Document)
    ensures (exists i :: 0 <= i < |d| && !NumbersParse(d[i])) ==> Snapshot(Some(d)) == []
    ensures Snapshot(Some(d)) != [] ==> forall i :: 0 <= i < |d| ==> NumbersParse(d[i])
  {
    if i :| 0 <= i < |d| && !NumbersParse(d[i]) {
      ParseRecordFails(d[i]);
      OneBadRecordEmptiesAll(d, i);
    }
    forall i | 0 <= i < |d| && Snapshot(Some(d)) != []
      ensures NumbersParse(d[i])
    {
      ParseRecordFails(d[i]);
    }
  }
}

=== FILE: seqs.dfy ===
/** Sequence helpers shared by the components: order-preserving filtering, sorting
    in non-increasing order, sums, and the facts that a permutation preserves them. */
module Seqs {

  /** The elements of `s` that satisfy `p`, in their original order. */
  function Filter<T>(p: T -> bool, s: seq<T>): (r: seq<T>)
    ensures |r| <= |s|
    ensures forall x :: x in r ==> x in s && p(x)
    ensures forall x :: x in s && p(x) ==> x in r
  {
    if s == [] then []
    else
      var init := s[..|s| - 1];
      assert s == init + [s[|s| - 1]];
      Filter(p, init) + (if p(s[|s| - 1]) then [s[|s| - 1]] else [])
  }

  /** The positions of `s` whose elements satisfy `p`, in increasing order. */
  function FilterIndices<T>(p: T -> bool, s: seq<T>): seq<nat>
  {
    if s == [] then []
    else FilterIndices(p, s[..|s| - 1]) + (if p(s[|s| - 1]) then [|s| - 1] else [])
  }

  lemma {:induction false} FilterIndicesBounds<T>(p: T -> bool, s: seq<T>)
    ensures |FilterIndices(p, s)| == |Filter(p, s)|
    ensures forall k :: 0 <= k < |FilterIndices(p, s)| ==>
      FilterIndices(p, s)[k] < |s| && Filter(p, s)[k] == s[FilterIndices(p, s)[k]]
  {
    if s != [] {
      var init := s[..|s| - 1];
      FilterIndicesBounds(p, init);
      var ix, r := FilterIndices(p, init), Filter(p, init);
      forall k | 0 <= k < |ix|
        ensures ix[k] < |s| && r[k] == s[ix[k]]
      {
        assert init[ix[k]] == s[ix[k]];
      }
    }
  }

  lemma {:induction false} FilterIndicesOrdered<T>(p: T -> bool, s: seq<T>)
    ensures forall k :: 0 <= k < |FilterIndices(p, s)| ==> FilterIndices(p, s)[k] < |s|
    ensures forall k, m :: 0 <= k < m < |FilterIndices(p, s)| ==>
      FilterIndices(p, s)[k] < FilterIndices(p, s)[m]
  {
    if s != [] {
      FilterIndicesOrdered(p, s[..|s| - 1]);
    }
  }

  lemma {:induction false} FilterIndicesComplete<T>(p: T -> bool, s: seq<T>)
    ensures forall j :: 0 <= j < |s| ==> (p(s[j]) <==> j in FilterIndices(p, s))
  {
    if s != [] {
      var init := s[..|s| - 1];
      FilterIndicesComplete(p, init);
      FilterIndicesOrdered(p, init);
      forall j | 0 <= j < |s|
        ensures p(s[j]) <==> j in FilterIndices(p, s)
      {
        if j < |init| {
          assert init[j] == s[j];
        }
      }
    }
  }

  /** `Filter` keeps exactly the elements that satisfy `p`, each once, in order:
      its k-th element is the element at the k-th satisfying position. */
  lemma FilterSpec<T>(p: T -> bool, s: seq<T>)
    ensures |FilterIndices(p, s)| == |Filter(p, s)|
    ensures forall k :: 0 <= k < |FilterIndices(p, s)| ==>
      FilterIndices(p, s)[k] < |s| && Filter(p, s)[k] == s[FilterIndices(p, s)[k]]
    ensures forall k, m :: 0 <= k < m < |FilterIndices(p, s)| ==>
      FilterIndices(p, s)[k] < FilterIndices(p, s)[m]
    ensures forall j :: 0 <= j < |s| ==> (p(s[j]) <==> j in FilterIndices(p, s))
  {
    FilterIndicesBounds(p, s);
    FilterIndicesOrdered(p, s);
    FilterIndicesComplete(p, s);
  }

  /** `Filter` keeps every occurrence of an element that satisfies `p` and none
      of one that does not. */
  lemma {:induction false} FilterCount<T>(p: T -> bool, s: seq<T>)
    ensures forall x :: multiset(Filter(p, s))[x] == if p(x) then multiset(s)[x] else 0
  {
    if s != [] {
      var init, last := s[..|s| - 1], s[|s| - 1];
      FilterCount(p, init);
      assert s == init + [last];
      assert multiset(s) == multiset(init) + multiset{last};
    }
  }

  /** Filtering with a test every element passes changes nothing. */
  lemma {:induction false} FilterAll<T>(p: T -> bool, s: seq<T>)
    requires forall i :: 0 <= i < |s| ==> p(s[i])
    ensures Filter(p, s) == s
  {
    if s != [] {
      var init, last := s[..|s| - 1], s[|s| - 1];
      forall i | 0 <= i < |init|
        ensures p(init[i])
      {
        assert init[i] == s[i];
      }
      FilterAll(p, init);
      assert p(last);
      assert Filter(p, s) == Filter(p, init) + [last];
      assert init + [last] == s;
    }
  }

  /** `f` applied to every element. */
  function MapSeq<T, U>(f: T -> U, s: seq<T>): (r: seq<U>)
    ensures |r| == |s|
    ensures forall i :: 0 <= i < |s| ==> r[i] == f(s[i])
  {
    seq(|s|, i requires 0 <= i < |s| => f(s[i]))
  }

  /** Sum of `f` over the elements of `s`. */
  function SumSeq<T>(f: T -> int, s: seq<T>): int
  {
    if s == [] then 0 else f(s[0]) + SumSeq(f, s[1..])
  }

  /** A sum of non-negative terms is non-negative, and of non-positive terms
      non-positive. */
  lemma {:induction false} SumSign<T>(f: T -> int, s: seq<T>)
    ensures (forall x :: x in s ==> f(x) >= 0) ==> SumSeq(f, s) >= 0
    ensures (forall x :: x in s ==> f(x) <= 0) ==> SumSeq(f, s) <= 0
  {
    if s != [] {
      SumSign(f, s[1..]);
      assert forall x :: x in s[1..] ==> x in s;
    }
  }

  lemma {:induction false} SumConcat<T>(f: T -> int, a: seq<T>, b: seq<T>)
    ensures SumSeq(f, a + b) == SumSeq(f, a) + SumSeq(f, b)
  {
    if a != [] {
      assert (a + b)[0] == a[0];
      assert (a + b)[1..] == a[1..] + b;
      SumConcat(f, a[1..], b);
      assert SumSeq(f, a + b) == f(a[0]) + SumSeq(f, a[1..] + b);
    } else {
      assert a + b == b;
    }
  }

  /** Where the first element of `a` sits in its permutation `b`, and what is left of both. */
  lemma PermutationSplit<T>(a: seq<T>, b: seq<T>) returns (i: nat)
    requires a != [] && multiset(a) == multiset(b)
    ensures i < |b| && b[i] == a[0]
    ensures b == b[..i] + [a[0]] + b[i + 1..]
    ensures multiset(a[1..]) == multiset(b[..i] + b[i + 1..])
  {
    var x := a[0];
    assert x in multiset(b);
    i :| 0 <= i < |b| && b[i] == x;
    var rest := b[..i] + b[i + 1..];
    assert b == b[..i] + [x] + b[i + 1..];
    assert a == [x] + a[1..];
    assert multiset(b) == multiset(b[..i]) + multiset{x} + multiset(b[i + 1..]);
    assert multiset(rest) == multiset(b[..i]) + multiset(b[i + 1..]);
    assert multiset(a[1..]) == multiset(a) - multiset{x};
  }

  /** A sum does not depend on the order of its terms. */
  lemma {:induction false} SumPermutation<T>(f: T -> int, a: seq<T>, b: seq<T>)
    requires multiset(a) == multiset(b)
    ensures SumSeq(f, a) == SumSeq(f, b)
    decreases |a|
  {
    if a == [] {
      assert |b| == |multiset(b)| == 0;
    } else {
      var i := PermutationSplit(a, b);
      SumPermutation(f, a[1..], b[..i] + b[i + 1..]);
      SumConcat(f, b[..i], [a[0]] + b[i + 1..]);
      SumConcat(f, [a[0]], b[i + 1..]);
      SumConcat(f, b[..i], b[i + 1..]);
      assert b[..i] + [a[0]] + b[i + 1..] == b[..i] + ([a[0]] + b[i + 1..]);
    }
  }

  /** Mapping a permutation gives a permutation of the images. */
  lemma {:induction false} MapPermutation<T, U>(f: T -> U, a: seq<T>, b: seq<T>)
    requires multiset(a) == multiset(b)
    ensures multiset(MapSeq(f, a)) == multiset(MapSeq(f, b))
    decreases |a|
  {
    if a == [] {
      assert |b| == |multiset(b)| == 0;
    } else {
      var i := PermutationSplit(a, b);
      var rest := b[..i] + b[i + 1..];
      MapPermutation(f, a[1..], rest);
      assert a == [a[0]] + a[1..];
      MapConcat(f, [a[0]], a[1..]);
      MapConcat(f, b[..i] + [a[0]], b[i + 1..]);
      MapConcat(f, b[..i], [a[0]]);
      MapConcat(f, b[..i], b[i + 1..]);
      calc {
        multiset(MapSeq(f, b));
        multiset(MapSeq(f, b[..i]) + MapSeq(f, [a[0]]) + MapSeq(f, b[i + 1..]));
        multiset(MapSeq(f, [a[0]])) + multiset(MapSeq(f, rest));
        multiset(MapSeq(f, a));
      }
    }
  }

  lemma MapConcat<T, U>(f: T -> U, a: seq<T>, b: seq<T>)
    ensures MapSeq(f, a + b) == MapSeq(f, a) + MapSeq(f, b)
  {
  }

  /** No element occurs twice. */
  predicate Distinct<T(==)>(s: seq<T>)
  {
    forall i, j :: 0 <= i < j < |s| ==> s[i] != s[j]
  }

  /** A sequence without repetitions has as many elements as its set. */
  lemma {:induction false} DistinctCardinality<T>(s: seq<T>)
    requires Distinct(s)
    ensures |set x | x in s| == |s|
  {
    if s != [] {
      var init := s[..|s| - 1];
      DistinctCardinality(init);
      assert (set x | x in s) == (set x | x in init) + {s[|s| - 1]};
      assert s[|s| - 1] !in (set x | x in init);
    }
  }

  /** Ordered by `key`, largest first (pandas `sort_values(..., ascending=False)`). */
  predicate SortedDesc<T>(key: T -> int, s: seq<T>)
  {
    forall i, j :: 0 <= i < j < |s| ==> key(s[i]) >= key(s[j])
  }

  function Insert<T>(key: T -> int, x: T, s: seq<T>): (r: seq<T>)
    requires SortedDesc(key, s)
    ensures SortedDesc(key, r)
    ensures multiset(r) == multiset(s) + multiset{x}
    ensures |r| == |s| + 1 && (r[0] == x || (s != [] && r[0] == s[0]))
  {
    if s == [] || key(x) >= key(s[0]) then [x] + s
    else
      assert s == [s[0]] + s[1..];
      [s[0]] + Insert(key, x, s[1..])
  }

  /** Sorts by `key`, largest first. Ties are left in an unspecified order, so the
      contract says only "non-increasing" and "a permutation of the input". */
  function SortDesc<T>(key: T -> int, s: seq<T>): (r: seq<T>)
    ensures SortedDesc(key, r)
    ensures multiset(r) == multiset(s)
  {
    if s == [] then []
    else
      assert s == [s[0]] + s[1..];
      Insert(key, s[0], SortDesc(key, s[1..]))
  }

  /** The first `n` elements, or all of them when there are fewer (pandas `head(n)`). */
  function Take<T>(s: seq<T>, n: nat): (r: seq<T>)
    ensures |r| == if n < |s| then n else |s|
    ensures r == s[..|r|]
  {
    if n < |s| then s[..n] else s
  }

  /** `p` occurs as a contiguous block starting at the first position of `s`. */
  predicate StartsWith<T(==)>(s: seq<T>, p: seq<T>)
  {
    |p| <= |s| && s[..|p|] == p
  }

  /** `p` ends `s` (Python's `str.endswith`). */
  predicate EndsWith<T(==)>(s: seq<T>, p: seq<T>)
  {
    |p| <= |s| && s[|s| - |p|..] == p
  }

  /** `p` occurs in `s` at position `i`. */
  predicate OccursAt<T(==)>(s: seq<T>, p: seq<T>, i: nat)
  {
    i + |p| <= |s| && s[i..i + |p|] == p
  }

  /** `p` occurs somewhere in `s` as a contiguous block (Python's `p in s`). */
  predicate Contains<T(==)>(s: seq<T>, p: seq<T>)
    decreases |s|
  {
    StartsWith(s, p) || (s != [] && Contains(s[1..], p))
  }

  /** `Contains` holds exactly when `p` occurs at some position of `s`. */
  lemma {:induction false} ContainsSpec<T>(s: seq<T>, p: seq<T>)
    ensures Contains(s, p) <==> exists i: nat :: OccursAt(s, p, i)
    decreases |s|
  {
    if StartsWith(s, p) {
      assert OccursAt(s, p, 0);
    } else if s == [] {
    } else {
      ContainsSpec(s[1..], p);
      if exists i: nat :: OccursAt(s, p, i) {
        var i: nat :| OccursAt(s, p, i);
        if i != 0 {
          assert s[1..][i - 1..i - 1 + |p|] == s[i..i + |p|];
          assert OccursAt(s[1..], p, i - 1);
        }
      }
      if Contains(s[1..], p) {
        var i: nat :| OccursAt(s[1..], p, i);
        forall k | 0 <= k < |p|
          ensures s[i + 1..i + 1 + |p|][k] == p[k]
        {
          assert s[1..][i..i + |p|][k] == p[k];
        }
        assert s[i + 1..i + 1 + |p|] == p;
        assert OccursAt(s, p, i + 1);
      }
    }
  }

  /** In a sequence without repetitions every element occurs once. */
  lemma {:induction false} DistinctCount<T>(s: seq<T>)
    requires Distinct(s)
    ensures forall x :: multiset(s)[x] <= 1
  {
    if s != [] {
      DistinctCount(s[1..]);
      assert s == [s[0]] + s[1..];
      assert s[0] !in s[1..];
    }
  }

  /** An element at two positions occurs at least twice. */
  lemma RepeatCount<T>(s: seq<T>, i: nat, j: nat)
    requires i < j < |s| && s[i] == s[j]
    ensures multiset(s)[s[i]] >= 2
  {
    assert s == s[..j] + s[j..];
    assert s[i] in s[..j] && s[j] in s[j..];
    assert multiset(s) == multiset(s[..j]) + multiset(s[j..]);
  }

  /** A permutation of a sequence without repetitions has none either. */
  lemma DistinctPermutation<T>(a: seq<T>, b: seq<T>)
    requires Distinct(a) && multiset(a) == multiset(b)
    ensures Distinct(b)
  {
    DistinctCount(a);
    forall i, j | 0 <= i < j < |b|
      ensures b[i] != b[j]
    {
      if b[i] == b[j] {
        RepeatCount(b, i, j);
        assert false;
      }
    }
  }

  /** A prefix of a sorted sequence is sorted and holds only elements of it. */
  lemma TakeSorted<T>(key: T -> int, s: seq<T>, n: nat)
    requires SortedDesc(key, s)
    ensures SortedDesc(key, Take(s, n))
    ensures forall x :: x in Take(s, n) ==> x in s
  {
    var top := Take(s, n);
    assert forall m :: 0 <= m < |top| ==> top[m] == s[m];
  }

  /** A prefix of a sorted sequence keeps its largest elements: everything
      left behind has a key no larger than any element kept. */
  lemma TakeLargest<T>(key: T -> int, s: seq<T>, n: nat, x: T, t: T)
    requires SortedDesc(key, s)
    requires x in s && x !in Take(s, n) && t in Take(s, n)
    ensures SortedDesc(key, Take(s, n))
    ensures key(t) >= key(x)
  {
    var top := Take(s, n);
    var j :| 0 <= j < |s| && s[j] == x;
    var i :| 0 <= i < |top| && top[i] == t;
    assert forall m :: 0 <= m < |top| ==> top[m] == s[m];
    assert s[i] == t;
  }
}

=== FILE: top_holdings.dfy ===
/** The single-snapshot view: the headline metrics and the top-N table built by
    grouping the latest snapshot on (CUSIP, issuer name), summing its numeric
    columns, sorting by value and keeping the first N groups. */
module TopHoldings {
  import opened Wrappers
  import opened Seqs
  import opened Holdings

  /** The groupby key `["cusip", "nameOfIssuer"]`. */
  type GroupKey = (string, string)

  function KeyOf(h: Holding): GroupKey
  {
    (h.cusip, h.nameOfIssuer)
  }

  function GroupKeySet(s: seq<Holding>): set<GroupKey>
  {
    set h | h in s :: KeyOf(h)
  }

  lemma GroupKeySetSnoc(s: seq<Holding>)
    requires s != []
    ensures GroupKeySet(s) == GroupKeySet(s[..|s| - 1]) + {KeyOf(s[|s| - 1])}
  {
    assert s == s[..|s| - 1] + [s[|s| - 1]];
  }

  /** The keys of a snapshot, each once, in order of first appearance. */
  function GroupKeys(s: seq<Holding>): (ks: seq<GroupKey>)
    ensures Distinct(ks) && |ks| <= |s|
    ensures forall k :: k in ks <==> k in GroupKeySet(s)
  {
    if s == [] then []
    else
      var ks := GroupKeys(s[..|s| - 1]);
      var k := KeyOf(s[|s| - 1]);
      GroupKeySetSnoc(s);
      if k in ks then ks else ks + [k]
  }

  /** The test "this row belongs to group `k`". */
  function HasKey(k: GroupKey): Holding -> bool
  {
    h => KeyOf(h) == k
  }

  /** Sum of column `f` over the rows with key `k`, accumulated in row order. */
  function GroupSum(f: Holding -> int, s: seq<Holding>, k: GroupKey): int
  {
    if s == [] then 0
    else GroupSum(f, s[..|s| - 1], k) + (if KeyOf(s[|s| - 1]) == k then f(s[|s| - 1]) else 0)
  }

  /** A group sum is the column total over exactly the group's rows. */
  lemma {:induction false} GroupSumIsFilteredSum(f: Holding -> int, s: seq<Holding>, k: GroupKey)
    ensures GroupSum(f, s, k) == SumSeq(f, Filter(HasKey(k), s))
  {
    if s != [] {
      var init, last := s[..|s| - 1], s[|s| - 1];
      GroupSumIsFilteredSum(f, init, k);
      SumConcat(f, Filter(HasKey(k), init), if HasKey(k)(last) then [last] else []);
    }
  }

  /** The position of the first row with key `k`. */
  function FirstOf(s: seq<Holding>, k: GroupKey): (r: Option<nat>)
    ensures r.Some? ==> r.value < |s| && KeyOf(s[r.value]) == k
                        && forall j :: 0 <= j < r.value ==> KeyOf(s[j]) != k
    ensures r.None? <==> forall j :: 0 <= j < |s| ==> KeyOf(s[j]) != k
  {
    if s == [] then None
    else if KeyOf(s[0]) == k then Some(0)
    else
      match FirstOf(s[1..], k)
      case None => None
      case Some(i) => Some(i + 1)
  }

  /** The aggregated row of group `k`: value, shares and sole voting authority
      summed, investment discretion taken from the group's first row. */
  function Aggregate(s: seq<Holding>, k: GroupKey): (h: Holding)
    ensures KeyOf(h) == k
    ensures h.valueUsd == SumSeq(ValueUsd, Filter(HasKey(k), s))
    ensures h.shares == SumSeq(Shares, Filter(HasKey(k), s))
    ensures h.votingSole == SumSeq(VotingSole, Filter(HasKey(k), s))
    ensures FirstOf(s, k).Some? ==> h.investmentDiscretion == s[FirstOf(s, k).value].investmentDiscretion
  {
    GroupSumIsFilteredSum(ValueUsd, s, k);
    GroupSumIsFilteredSum(Shares, s, k);
    GroupSumIsFilteredSum(VotingSole, s, k);
    Holding(
      k.1,
      k.0,
      GroupSum(ValueUsd, s, k),
      GroupSum(Shares, s, k),
      match FirstOf(s, k) case Some(i) => s[i].investmentDiscretion case None => "",
      GroupSum(VotingSole, s, k))
  }

  function AggregateAll(s: seq<Holding>, ks: seq<GroupKey>): (r: seq<Holding>)
    ensures |r| == |ks| && forall i :: 0 <= i < |ks| ==> r[i] == Aggregate(s, ks[i])
  {
    seq(|ks|, i requires 0 <= i < |ks| => Aggregate(s, ks[i]))
  }

  /** `groupby(["cusip", "nameOfIssuer"]).agg(...)`: one aggregated row per group. */
  function Groups(s: seq<Holding>): (r: seq<Holding>)
    ensures |r| == |GroupKeySet(s)| <= |s|
    ensures forall i :: 0 <= i < |r| ==>
      KeyOf(r[i]) in GroupKeySet(s) && r[i] == Aggregate(s, KeyOf(r[i]))
    ensures forall k :: k in GroupKeySet(s) ==> Aggregate(s, k) in r
  {
    GroupKeysCount(s);
    GroupsCover(s);
    AggregateAll(s, GroupKeys(s))
  }

  /** There are as many group keys as distinct (CUSIP, name) pairs. */
  lemma GroupKeysCount(s: seq<Holding>)
    ensures |GroupKeys(s)| == |GroupKeySet(s)|
  {
    var ks := GroupKeys(s);
    DistinctCardinality(ks);
    assert (set x | x in ks) == GroupKeySet(s);
  }

  /** Every (CUSIP, name) pair of the snapshot has its aggregate among the groups. */
  lemma GroupsCover(s: seq<Holding>)
    ensures forall k :: k in GroupKeySet(s) ==> Aggregate(s, k) in AggregateAll(s, GroupKeys(s))
  {
    var ks := GroupKeys(s);
    var r := AggregateAll(s, ks);
    forall k | k in GroupKeySet(s)
      ensures Aggregate(s, k) in r
    {
      assert k in ks;
      var i :| 0 <= i < |ks| && ks[i] == k;
      assert r[i] == Aggregate(s, k);
    }
  }

  /** The top-N table: the groups sorted by value, largest first, then `head(n)`. */
  function TopN(s: seq<Holding>, n: nat): (r: seq<Holding>)
    ensures |r| <= n
    ensures SortedDesc(ValueUsd, r)
    ensures forall t :: t in r ==> t in Groups(s)
  {
    var sorted := SortDesc(ValueUsd, Groups(s));
    TakeSorted(ValueUsd, sorted, n);
    assert forall t :: t in sorted ==> t in multiset(Groups(s));
    Take(sorted, n)
  }

  /** "Stocks Tracked": the number of rows of the latest snapshot, never fewer
      than the rows of its grouped table. */
  function StocksTracked(s: seq<Holding>): (r: nat)
    ensures r >= |Groups(s)|
  {
    |s|
  }

  /** "Portfolio Value": the sum of the value column of the latest snapshot,
      which grouping leaves unchanged. */
  function PortfolioValue(s: seq<Holding>): (r: int)
    ensures r == SumSeq(ValueUsd, Groups(s))
  {
    AggregateAllTotal(ValueUsd, s, GroupKeys(s));
    GroupTotalIsTotal(ValueUsd, s);
    SumSeq(ValueUsd, s)
  }

  // ---------------------------------------------------------------------------
  // Shape of the top-N table

  lemma SortedGroupsCount(s: seq<Holding>)
    ensures |SortDesc(ValueUsd, Groups(s))| == |GroupKeySet(s)|
  {
    var ks := GroupKeys(s);
    DistinctCardinality(ks);
    assert (set x | x in ks) == GroupKeySet(s);
    var sorted := SortDesc(ValueUsd, Groups(s));
    assert |sorted| == |multiset(sorted)| == |multiset(Groups(s))| == |ks|;
  }

  /** The table has `min(n, number of distinct (CUSIP, name) pairs)` rows. */
  lemma TopNSize(s: seq<Holding>, n: nat)
    ensures |TopN(s, n)| == if n < |GroupKeySet(s)| then n else |GroupKeySet(s)|
  {
    SortedGroupsCount(s);
  }

  /** Each row of the table is the aggregate of its own group, and that group
      occurs in the snapshot: its value, shares and sole voting authority are
      the totals over the group's rows. */
  lemma TopNRowsAreGroups(s: seq<Holding>, n: nat)
    ensures forall t :: t in TopN(s, n) ==>
      KeyOf(t) in GroupKeySet(s) && t == Aggregate(s, KeyOf(t))
    ensures forall t :: t in TopN(s, n) ==>
      t.valueUsd == SumSeq(ValueUsd, Filter(HasKey(KeyOf(t)), s))
      && t.shares == SumSeq(Shares, Filter(HasKey(KeyOf(t)), s))
      && t.votingSole == SumSeq(VotingSole, Filter(HasKey(KeyOf(t)), s))
  {
    var groups := Groups(s);
    var sorted := SortDesc(ValueUsd, groups);
    forall t | t in TopN(s, n)
      ensures KeyOf(t) in GroupKeySet(s) && t == Aggregate(s, KeyOf(t))
    {
      assert t in sorted;
      assert t in multiset(groups);
      var i :| 0 <= i < |groups| && groups[i] == t;
      assert GroupKeys(s)[i] in GroupKeys(s);
    }
  }

  /** No (CUSIP, name) group appears twice in the table. */
  lemma TopNDistinct(s: seq<Holding>, n: nat)
    ensures Distinct(MapSeq(KeyOf, TopN(s, n)))
  {
    var groups := Groups(s);
    var sorted := SortDesc(ValueUsd, groups);
    var top := TopN(s, n);
    assert MapSeq(KeyOf, groups) == GroupKeys(s);
    MapPermutation(KeyOf, groups, sorted);
    var keys := MapSeq(KeyOf, sorted);
    DistinctPermutation(MapSeq(KeyOf, groups), keys);
    forall i, j | 0 <= i < j < |top|
      ensures KeyOf(top[i]) != KeyOf(top[j])
    {
      assert top[i] == sorted[i] && top[j] == sorted[j];
      assert keys[i] != keys[j];
    }
  }

  /** The table is ordered by value, largest first, and holds the largest
      groups: every group left out is worth no more than any row kept. */
  lemma TopNLargest(s: seq<Holding>, n: nat)
    ensures SortedDesc(ValueUsd, TopN(s, n))
    ensures forall g, t :: g in Groups(s) && g !in TopN(s, n) && t in TopN(s, n) ==>
      t.valueUsd >= g.valueUsd
  {
    var sorted := SortDesc(ValueUsd, Groups(s));
    forall g, t | g in Groups(s) && g !in TopN(s, n) && t in TopN(s, n)
      ensures t.valueUsd >= g.valueUsd
    {
      assert g in multiset(sorted);
      TakeLargest(ValueUsd, sorted, n, g, t);
    }
  }

  // ---------------------------------------------------------------------------
  // Totals

  /** Sum over the keys `ks` of the group sums of column `f`. */
  function GroupTotal(f: Holding -> int, ks: seq<GroupKey>, s: seq<Holding>): int
  {
    if ks == [] then 0 else GroupSum(f, s, ks[0]) + GroupTotal(f, ks[1..], s)
  }

  lemma {:induction false} GroupSumAbsent(f: Holding -> int, s: seq<Holding>, k: GroupKey)
    requires k !in GroupKeySet(s)
    ensures GroupSum(f, s, k) == 0
  {
    if s != [] {
      GroupKeySetSnoc(s);
      GroupSumAbsent(f, s[..|s| - 1], k);
    }
  }

  lemma {:induction false} GroupTotalSnoc(f: Holding -> int, ks: seq<GroupKey>, s: seq<Holding>)
    requires s != [] && Distinct(ks)
    ensures GroupTotal(f, ks, s)
            == GroupTotal(f, ks, s[..|s| - 1]) + (if KeyOf(s[|s| - 1]) in ks then f(s[|s| - 1]) else 0)
  {
    if ks != [] {
      assert ks == [ks[0]] + ks[1..];
      GroupTotalSnoc(f, ks[1..], s);
    }
  }

  lemma {:induction false} GroupTotalAppendKey(f: Holding -> int, ks: seq<GroupKey>, k: GroupKey, s: seq<Holding>)
    ensures GroupTotal(f, ks + [k], s) == GroupTotal(f, ks, s) + GroupSum(f, s, k)
  {
    if ks == [] {
      assert ks + [k] == [k];
    } else {
      assert (ks + [k])[1..] == ks[1..] + [k];
      GroupTotalAppendKey(f, ks[1..], k, s);
    }
  }

  /** Summing the group sums of column `f` gives the column's total. */
  lemma {:induction false} GroupTotalIsTotal(f: Holding -> int, s: seq<Holding>)
    ensures GroupTotal(f, GroupKeys(s), s) == SumSeq(f, s)
  {
    if s != [] {
      var init, x := s[..|s| - 1], s[|s| - 1];
      var ks := GroupKeys(init);
      GroupTotalIsTotal(f, init);
      assert s == init + [x];
      SumConcat(f, init, [x]);
      GroupTotalSnoc(f, GroupKeys(s), s);
      if KeyOf(x) !in ks {
        GroupTotalAppendKey(f, ks, KeyOf(x), init);
        GroupSumAbsent(f, init, KeyOf(x));
      }
    }
  }

  lemma {:induction false} AggregateAllTotal(f: Holding -> int, s: seq<Holding>, ks: seq<GroupKey>)
    requires forall k :: f(Aggregate(s, k)) == GroupSum(f, s, k)
    ensures SumSeq(f, AggregateAll(s, ks)) == GroupTotal(f, ks, s)
  {
    if ks != [] {
      assert AggregateAll(s, ks)[1..] == AggregateAll(s, ks[1..]);
      AggregateAllTotal(f, s, ks[1..]);
    }
  }

  /** When N covers every group, the table's value, shares and sole voting
      columns add up to the snapshot's totals; in particular its values add up
      to the portfolio value. */
  lemma TopNCoversTotal(s: seq<Holding>, n: nat)
    requires n >= |GroupKeySet(s)|
    ensures SumSeq(ValueUsd, TopN(s, n)) == PortfolioValue(s)
    ensures SumSeq(Shares, TopN(s, n)) == SumSeq(Shares, s)
    ensures SumSeq(VotingSole, TopN(s, n)) == SumSeq(VotingSole, s)
  {
    SortedGroupsCount(s);
    var sorted := SortDesc(ValueUsd, Groups(s));
    assert TopN(s, n) == sorted;
    SumPermutation(ValueUsd, sorted, Groups(s));
    SumPermutation(Shares, sorted, Groups(s));
    SumPermutation(VotingSole, sorted, Groups(s));
    AggregateAllTotal(ValueUsd, s, GroupKeys(s));
    AggregateAllTotal(Shares, s, GroupKeys(s));
    AggregateAllTotal(VotingSole, s, GroupKeys(s));
    GroupTotalIsTotal(ValueUsd, s);
    GroupTotalIsTotal(Shares, s);
    GroupTotalIsTotal(VotingSole, s);
  }

  // ---------------------------------------------------------------------------
  // Grouping an already grouped snapshot

  lemma {:induction false} GroupKeysOfDistinct(s: seq<Holding>)
    requires Distinct(MapSeq(KeyOf, s))
    ensures GroupKeys(s) == MapSeq(KeyOf, s)
  {
    if s != [] {
      var init := s[..|s| - 1];
      assert MapSeq(KeyOf, init) == MapSeq(KeyOf, s)[..|s| - 1];
      GroupKeysOfDistinct(init);
      assert KeyOf(s[|s| - 1]) !in MapSeq(KeyOf, init);
    }
  }

  lemma {:induction false} GroupSumOfDistinct(f: Holding -> int, s: seq<Holding>, i: nat)
    requires Distinct(MapSeq(KeyOf, s)) && i < |s|
    ensures GroupSum(f, s, KeyOf(s[i])) == f(s[i])
  {
    var init := s[..|s| - 1];
    assert MapSeq(KeyOf, init) == MapSeq(KeyOf, s)[..|s| - 1];
    if i == |s| - 1 {
      assert KeyOf(s[i]) !in GroupKeySet(init) by {
        assert forall h :: h in init ==> KeyOf(h) in MapSeq(KeyOf, init);
      }
      GroupSumAbsent(f, init, KeyOf(s[i]));
    } else {
      GroupSumOfDistinct(f, init, i);
      assert MapSeq(KeyOf, s)[i] != MapSeq(KeyOf, s)[|s| - 1];
    }
  }

  /** Grouping a snapshot whose (CUSIP, name) pairs are already unique gives the
      snapshot back, row for row. */
  lemma AggregateIdempotent(s: seq<Holding>)
    requires Distinct(MapSeq(KeyOf, s))
    ensures Groups(s) == s
  {
    GroupKeysOfDistinct(s);
    forall i | 0 <= i < |s|
      ensures Groups(s)[i] == s[i]
    {
      GroupSumOfDistinct(ValueUsd, s, i);
      GroupSumOfDistinct(Shares, s, i);
      GroupSumOfDistinct(VotingSole, s, i);
      var first := FirstOf(s, KeyOf(s[i]));
      assert forall j :: 0 <= j < |s| && j != i ==> MapSeq(KeyOf, s)[j] != MapSeq(KeyOf, s)[i];
      assert first == Some(i);
    }
  }
}

=== FILE: wrappers.dfy ===
/** Optional values: Python's `None` next to a present value. */
module Wrappers {

  datatype Option<+T> = None | Some(value: T) {

    /** The present value, or `default` when absent (pandas' `fillna`, Python's `x or d`). */
    function GetOr(default: T): T {
      match this
      case Some(v) => v
      case None => default
    }
  }
}
